=== FILE: README.md ===
# Forum client store, modelled in Dafny

This project models the Vuex store modules of a forum web client: posts
and their comments (`posts.js`), paging (`pagination.js`), uploaded and
per-post images (`picture.js`), comment replies fed by a remote listener
(`comments.js`), topic replies fetched over HTTP (`reply.js`), and the
session (`auth.js`).

Each module's state is a Dafny `class` whose fields are the Vuex state
fields. Each mutation is a method that changes only the fields it names.
Each action is a method that receives the results of its remote reads
(the Firebase tree, the HTTP responses, the authentication service
outcome) as parameters. It returns what it would write remotely, next to
its own result. Two actions report something in place of what they
resolve to: `updateUsername` resolves to `{ success: true }` and
`updatePost` to `true`, while the model returns the record each wrote.

JavaScript values are the datatype `Js.Value`. A record is a
`map<string, Value>`. Spread syntax is map union with the later operand
winning, `a || b` is `Js.Or` over JavaScript truthiness, and an absent
property reads as `Undefined`. An exception is a `Result` or `Outcome`
whose error side records whether the code threw an `Error` with a message,
the engine raised a `TypeError`, or an undeclared variable was read (a
`ReferenceError`).

The model follows the code as written. There is no reconciliation,
optimistic-update or pending-write layer in these modules, so none is
modelled. Code that cannot work is modelled as failing:

- A later definition under the same name in one object literal replaces
  the earlier one. So `ADD_COMMENT` is the one at `posts.js:99`,
  `createComment` the one at `posts.js:580`, and `getUserId` the one at
  `auth.js:37`.
- `ADD_COMMENT`, `UPDATE_COMMENT_LIKES` and `ADD_REPLY_TO_COMMENT` call
  `.find` on `state.posts`, which is a plain object. They always throw a
  `TypeError`.
- `createComment`, `likeComment` and `replyToComment` read
  `rootState.auth.currentUser`, which the session store does not have.
  `createComment` and `replyToComment` throw a `TypeError` when they read
  its `uid`. `likeComment` first evaluates `firebase.database`, and
  `firebase` is declared nowhere in these modules, so it throws a
  `ReferenceError` before it reaches `uid`.
- `logout` calls the listener handle itself and then commits
  `SET_AUTH_UNSUBSCRIBE(null)`, which finds the handle still in its slot
  and calls it a second time.
- `updateUsername` writes the profile as the empty template plus the new
  username, which blanks the remote avatar and signature.

## Model

| member | source | states |
|---|---|---|
| Pagination.TotalPages | src/store/modules/pagination.js:38 | for a positive page size, `p` pages hold all items and `p - 1` do not (the ceiling of the division) |
| Pagination.TotalPagesIsLeast | src/store/modules/pagination.js:38 | no smaller page count holds every item |
| Pagination.Slice | src/store/modules/pagination.js:42 | `slice` clamps to the array: at most `end - start` items, empty past the end, the exact sub-range when in bounds |
| Pagination.PagedItems | src/store/modules/pagination.js:39-43 | page `n` is `items[(n-1)·size .. n·size]` clamped to the array, never longer than the page size |
| Pagination.PastLastPageIsEmpty | src/store/modules/pagination.js:38-43 | a page beyond the page count is empty |
| Pagination.InitialStateHasNoPages | src/store/modules/pagination.js:7-9 | the initial state (page 1, 10 per page, 0 items) has 0 pages |
| Pagination.FirstPagesArePrefix | src/store/modules/pagination.js:39-43 | pages 1..n put together are the first `n·size` items (all items once past the end) |
| Pagination.PagesCoverItems | src/store/modules/pagination.js:38-43 | with `totalItems == \|items\|`, the pages 1..getTotalPages put together are exactly the items |
| Pagination.PaginationStore.constructor | src/store/modules/pagination.js:5-11 | page 1, 10 per page, no items |
| Pagination.PaginationStore.SetCurrentPage | src/store/modules/pagination.js:13-15 | sets the page and leaves the other two fields unchanged |
| Pagination.PaginationStore.SetItemsPerPage | src/store/modules/pagination.js:16-18 | sets the page size and leaves the other two fields unchanged |
| Pagination.PaginationStore.SetTotalItems | src/store/modules/pagination.js:19-21 | sets the total and leaves the other two fields unchanged |
| Pagination.PaginationStore.GetTotalPages | src/store/modules/pagination.js:38 | the getter is the ceiling of total over page size |
| Pagination.PaginationStore.GetPagedItems | src/store/modules/pagination.js:39-43 | the getter is the current page's slice, at most one page long |
| Picture.WithImage | src/store/modules/picture.js:18-22 | the URL is appended only when absent; the list is unchanged otherwise |
| Picture.WithImageKeepsNoDups | src/store/modules/picture.js:18-22 | adding never creates a duplicate |
| Picture.WithImageIdempotent | src/store/modules/picture.js:18-22 | adding a URL twice equals adding it once |
| Picture.DedupElements | src/store/modules/picture.js:114-117 | refilling the list with `ADD_IMAGE` gives the same URLs without duplicates |
| Picture.DedupKeepsFirstOccurrenceOrder | src/store/modules/picture.js:114-117 | the refilled list keeps the URLs in the order of their first occurrence |
| Picture.DedupOfDistinct | src/store/modules/picture.js:114-117 | a duplicate-free input is reproduced exactly |
| Picture.WithoutRemovesOnlyTheUrl | src/store/modules/picture.js:167-173 | filtering removes every copy of the URL, keeps every other URL's count, and keeps the order |
| Picture.RemovedAt | src/store/modules/picture.js:30-32 | `splice(index, 1)` removes exactly the element at `index` and shifts the rest; an index past the end changes nothing |
| Picture.ArrayOrEmpty | src/store/modules/picture.js:24 | an array is kept, anything else becomes `[]` |
| Picture.PictureStore.constructor | src/store/modules/picture.js:6-12 | empty maps and list, no selected image |
| Picture.PictureStore.SetPostImages | src/store/modules/picture.js:15-17 | writes one post's entry and changes nothing else |
| Picture.PictureStore.AddImage | src/store/modules/picture.js:18-22 | the uploaded list becomes `WithImage` of the old one; the other fields are unchanged |
| Picture.PictureStore.SetUploadedImages | src/store/modules/picture.js:23-26 | the list becomes the input when it is an array and `[]` otherwise |
| Picture.PictureStore.SetUploadProgress | src/store/modules/picture.js:27-29 | writes one file's progress and changes nothing else |
| Picture.PictureStore.RemoveImage | src/store/modules/picture.js:30-32 | the list becomes `RemovedAt(old list, index)` |
| Picture.PictureStore.ClearUploadedImages | src/store/modules/picture.js:33-36 | empties the list and the progress map, keeps the rest |
| Picture.PictureStore.SetSelectedImage | src/store/modules/picture.js:37-39 | sets the selected image only |
| Picture.PictureStore.UploadImage | src/store/modules/picture.js:62-88 | without success and URL it throws; a failed read is rethrown; a stored string returns the URL iff it contains it as a substring, else `push` throws a TypeError, and nothing is written; any other truthy non-array throws a TypeError; for an array (or nothing stored) the URL is returned, and it is written remotely and added locally only when the list lacks it, a failed write being rethrown with the store unchanged |
| Picture.PictureStore.LoadImagesFromFirebase | src/store/modules/picture.js:91-105 | an array replaces the list and a falsy value clears it; a failed read, or any other value (which throws in `map`), is swallowed, so nothing changes |
| Picture.PictureStore.SavePostImages | src/store/modules/picture.js:112-133 | the uploaded list becomes `Dedup(images)` and the progress is cleared; the post's list is set only when the remote write succeeds, else the fixed error is thrown |
| Picture.PictureStore.FetchPostImages | src/store/modules/picture.js:135-155 | a failed read gives the fixed error and changes nothing; an existing remote list is stored for the post and returned; otherwise `[]` is returned and nothing changes |
| Picture.PictureStore.RemovePostImage | src/store/modules/picture.js:157-183 | with a post id the URL is filtered out of the remote list, which is written back and stored; without one it is filtered out of the uploaded list; it fails with the fixed message, changing nothing, exactly when there is a post id and the read or write fails or the stored value is not an array |
| Picture.PictureStore.RemoveImageAction | src/store/modules/picture.js:185-193 | always reports success, after the splice |
| Picture.PictureStore.ClearImages | src/store/modules/picture.js:213-215 | empties the uploaded list and keeps the progress map |
| Picture.PictureStore.GetPostImages | src/store/modules/picture.js:219 | an unknown post or a falsy entry gives `[]`, a truthy entry is returned as is |
| Picture.PictureStore.GetUploadProgress | src/store/modules/picture.js:221 | an unknown file or a falsy entry gives 0, a truthy entry is returned as is |
| Comments.ChildRecord | src/store/modules/comments.js:44-48 | the record has the child's fields plus `id`; the key is the id unless the value has its own `id`, which wins |
| Comments.Flatten | src/store/modules/comments.js:42-50 | one record per child in iteration order; an absent snapshot gives `[]` |
| Comments.NewReply | src/store/modules/comments.js:70-81 | the reply has exactly content, author and timestamp; each of the author's username, avatarUrl and signature is the profile's value when truthy, else 'Guest', '/image/empty_avatar.png' or 'New User' |
| Comments.NewReplyKeepsProfile | src/store/modules/comments.js:70-79 | a profile whose three fields are all truthy yields an author made of exactly the uid and those fields |
| Comments.CommentsStore.constructor | src/store/modules/comments.js:7-14 | empty maps and list, not loading, no error |
| Comments.CommentsStore.SetReplies | src/store/modules/comments.js:16-18 | replaces one comment's reply list and nothing else |
| Comments.CommentsStore.AddReply | src/store/modules/comments.js:19-24 | a missing list is created, the reply goes at its end, every other comment's list is unchanged |
| Comments.CommentsStore.SetComments | src/store/modules/comments.js:25-27 | replaces the comment list only |
| Comments.CommentsStore.SetLoading | src/store/modules/comments.js:28-30 | sets the loading flag only |
| Comments.CommentsStore.SetError | src/store/modules/comments.js:31-33 | sets the error only |
| Comments.CommentsStore.OnRepliesSnapshot | src/store/modules/comments.js:41-52 | one pushed snapshot replaces that comment's replies with the flattened children |
| Comments.CommentsStore.OnCommentsSnapshot | src/store/modules/comments.js:100-111 | one pushed snapshot replaces the comments with the flattened children |
| Comments.CommentsStore.FetchListener | src/store/modules/comments.js:36-59 | the loading flag is false once the listener is registered; nothing else changes |
| Comments.CommentsStore.AddReplyAction | src/store/modules/comments.js:61-93 | without a user it fails with the sign-in message and writes nothing; otherwise it writes `NewReply`, and a failed write is recorded as the error |
| Comments.CommentsStore.GetReplies | src/store/modules/comments.js:121-123 | an unknown comment gives `[]` |
| Comments.CommentsStore.HasError | src/store/modules/comments.js:128 | true exactly when the error is not null |
| Reply.Enrich | src/store/modules/reply.js:62-73 | the reply keeps its fields and gains `username` and `userAvatar` and no other key, from the profile when truthy, else 'Гость' and '/image/empty_avatar.png'; a failed lookup uses both defaults |
| Reply.ProfileFor | src/store/modules/reply.js:58-73 | a null or undefined reply gets no profile, because reading its `userId` throws inside the `try`; otherwise the response for its `userId`, if the request succeeded |
| Reply.EnrichAll | src/store/modules/reply.js:56-76 | same length and order as the fetched list, each element enriched |
| Reply.EnrichAllAppend | src/store/modules/reply.js:56-76 | enriching a concatenation is concatenating the enrichments |
| Reply.ReplyStore.constructor | src/store/modules/reply.js:3-7 | no replies, not loading, no error |
| Reply.ReplyStore.SetReplies | src/store/modules/reply.js:10-12 | replaces the whole list |
| Reply.ReplyStore.AddReply | src/store/modules/reply.js:13-15 | one element longer, earlier elements unchanged, the reply last |
| Reply.ReplyStore.SetLoading | src/store/modules/reply.js:16-18 | sets the loading flag only |
| Reply.ReplyStore.SetError | src/store/modules/reply.js:19-21 | sets the error only |
| Reply.ReplyStore.AddReplyAction | src/store/modules/reply.js:26-47 | loading is false afterwards on both paths; success appends the posted reply, failure records the exception's message and rethrows |
| Reply.ReplyStore.FetchRepliesByTopicId | src/store/modules/reply.js:50-85 | loading is false afterwards on both paths; an array response is stored enriched; a failed request or a non-array response throws, records the exception's message and keeps the list |
| Posts.CommentsOf | src/store/modules/posts.js:50 | a post without a list reads as `[]` |
| Posts.MergeById | src/store/modules/posts.js:49-57 | same length and order; exactly the comments with the id get the updates spread over them |
| Posts.MergeByIdIdempotent | src/store/modules/posts.js:49-57 | applying the same update twice equals applying it once, when the update does not change `id` |
| Posts.WithoutId | src/store/modules/posts.js:58-64 | the filtered list is no longer than the original |
| Posts.WithoutIdRemovesExactly | src/store/modules/posts.js:58-64 | no comment with the id survives, every other comment keeps its multiplicity, and the order is kept |
| Posts.AppendComment | src/store/modules/posts.js:42-48 | the shadowed `ADD_COMMENT` appends to the post's list (created when missing) and leaves other posts' lists unchanged |
| Posts.IterableItems | src/store/modules/posts.js:72 | arrays and strings spread into elements; any other value is not iterable |
| Posts.WithReply | src/store/modules/posts.js:70-73 | the comment gains the reply at the end of its `replies` (`[]` when falsy) and keeps its other fields; a truthy non-iterable `replies` throws a TypeError |
| Posts.AppendReply | src/store/modules/posts.js:65-77 | succeeds iff every matching comment can take the reply; then only matching comments change |
| Posts.IndexOf | src/store/modules/posts.js:313 | -1 iff the uid is absent, else its first position |
| Posts.ToggleLikes | src/store/modules/posts.js:312-319 | the pushed or spliced array equals `Toggled` |
| Posts.ToggledCounts | src/store/modules/posts.js:312-319 | one toggle adds or removes exactly one copy of the uid |
| Posts.ToggledFlips | src/store/modules/posts.js:312-319 | without duplicates, the uid's membership flips, other ids are kept, and no duplicate appears |
| Posts.ToggleTwice | src/store/modules/posts.js:312-319 | toggling twice from "not liked" restores the array; from "liked" without duplicates it restores the same ids |
| Posts.CountOf | src/store/modules/posts.js:470 | `count \|\| 0` for a stored counter |
| Posts.LikesCountAfterToggle | src/store/modules/posts.js:467-485 | liking writes n+1; unliking writes max(0, n-1), never negative |
| Posts.CommentLikeUpdates | src/store/modules/posts.js:473-494 | the merged updates are exactly `isLiked` flipped and the new count |
| Posts.CommentsCountAfterCreate | src/store/modules/posts.js:442-444 | the count goes up by one |
| Posts.CommentsCountAfterDelete | src/store/modules/posts.js:530-532 | a count of at least one goes down by one; a count below one becomes zero |
| Posts.CountersRoundTrip | src/store/modules/posts.js:442-532 | from a non-negative count every write is non-negative, and unlike-after-like or delete-after-create restores the count |
| Posts.ReplaceFirstAbsent | src/store/modules/posts.js:201 | a string without the pattern is unchanged by `replace` |
| Posts.ReplaceFirstAt | src/store/modules/posts.js:201 | only the first occurrence is replaced |
| Posts.RewriteUrlFirstOnly | src/store/modules/posts.js:201 | only the first `/uploads/` becomes `/upload/`; URLs without it are unchanged |
| Posts.RewriteAttachment | src/store/modules/posts.js:199-202 | the attachment keeps every field but `url`, which is rewritten; a non-string `url` throws |
| Posts.RewriteAttachments | src/store/modules/posts.js:199-202 | succeeds iff every url is a string, element by element |
| Posts.RewriteAttachmentsIn | src/store/modules/posts.js:198-203 | falsy attachments are left alone, a truthy non-array throws, otherwise only `attachments` changes |
| Posts.MayDeleteComment | src/store/modules/posts.js:518-520 | the comment's author or a user with a truthy `isAdmin` may delete it, and no one else |
| Posts.NewPost | src/store/modules/posts.js:197-212 | exactly the caller's keys plus `id`, `likes: []`, `views: 0` and both timestamps; the caller's other fields are kept and `attachments` is the rewritten list |
| Posts.FindCategoryOf | src/store/modules/posts.js:147-171 | finds a category that lists the post; none iff no category lists it |
| Posts.PostBase | src/store/modules/posts.js:149-153 | `id` and `categoryId` first, overridden by the entry's own fields |
| Posts.AuthorOf | src/store/modules/posts.js:156-165 | an author iff `authorId` is truthy and its profile exists; then the profile's fields plus `id` |
| Posts.PostData | src/store/modules/posts.js:149-165 | the base record, plus `author` exactly when there is one |
| Posts.Keyed | src/store/modules/posts.js:357-360 | `{ id, ...value }`: the value's fields, with `id` from the key unless the value has one |
| Posts.CollectPosts | src/store/modules/posts.js:352-362 | one record for exactly the listed ids whose post exists |
| Posts.InsertNewestFirst | src/store/modules/posts.js:364 | inserting into a newest-first list gives a newest-first permutation |
| Posts.InsertedNewestFirst | src/store/modules/posts.js:364 | placing the element after every newer one keeps the order |
| Posts.SortNewestFirst | src/store/modules/posts.js:364 | the sort returns a permutation in non-increasing timestamp order |
| Posts.SortKeysNewestFirst | src/store/modules/posts.js:364-368 | every fetched key once, ordered by `createdAt` descending |
| Posts.PostsByCategory | src/store/modules/posts.js:664-665 | the elements are the posts stored under the category's keys, each key used exactly once |
| Posts.FilterCategory | src/store/modules/posts.js:665 | every kept post has the category; the kept posts are those of the given keys whose `categoryId` matches, each once, at strictly increasing positions of the key list |
| Posts.SetToSeq | src/store/modules/posts.js:349 | `Object.keys`: every key once |
| Posts.NewReply | src/store/modules/posts.js:550-559 | the reply has the author's uid, the text, the client time and the author's name and photo |
| Posts.PostsStore.constructor | src/store/modules/posts.js:20-27 | empty maps, no current or editing post, not loading, no error |
| Posts.PostsStore.SetPosts | src/store/modules/posts.js:30-32 | keeps every old key, adds the incoming ones, and the incoming post wins on a clash |
| Posts.PostsStore.SetPost | src/store/modules/posts.js:33-35 | stores the post under its id and changes no other key |
| Posts.PostsStore.SetComments | src/store/modules/posts.js:36-41 | replaces one post's list only |
| Posts.PostsStore.UpdateComment | src/store/modules/posts.js:49-57 | the post's list becomes `MergeById` of it; other posts unchanged |
| Posts.PostsStore.DeleteComment | src/store/modules/posts.js:58-64 | the post's list becomes `WithoutId` of it; other posts unchanged |
| Posts.PostsStore.AddReply | src/store/modules/posts.js:65-77 | the post's list becomes `AppendReply` of it, or nothing changes and the TypeError is reported |
| Posts.PostsStore.SetCurrentPost | src/store/modules/posts.js:78-80 | sets the current post only |
| Posts.PostsStore.SetEditingPost | src/store/modules/posts.js:81-83 | sets the editing post only |
| Posts.PostsStore.UpdatePost | src/store/modules/posts.js:84-89 | the value at a key whose post has the same id is replaced whole; with no such key nothing changes |
| Posts.PostsStore.DeletePost | src/store/modules/posts.js:90-92 | removes the key only |
| Posts.PostsStore.SetLoading | src/store/modules/posts.js:93-95 | sets the loading flag only |
| Posts.PostsStore.SetError | src/store/modules/posts.js:96-98 | sets the error only |
| Posts.PostsStore.AddComment | src/store/modules/posts.js:99-107 | always throws a TypeError (`find` on a plain object) and changes nothing |
| Posts.PostsStore.UpdateCommentLikes | src/store/modules/posts.js:108-117 | always throws a TypeError and changes nothing |
| Posts.PostsStore.AddReplyToComment | src/store/modules/posts.js:118-129 | always throws a TypeError and changes nothing |
| Posts.PostsStore.FetchPostById | src/store/modules/posts.js:134-183 | fails with 'Пост не найден' iff no category lists the post; otherwise stores and returns the post data built from a listing category's entry `posts[postId]`; loading ends false |
| Posts.PostsStore.CreatePost | src/store/modules/posts.js:186-228 | an empty key or a bad attachment throws and records the error; otherwise the new post becomes current and is written with its category link |
| Posts.PostsStore.UpdatePostAction | src/store/modules/posts.js:231-260 | the stored post with that id is replaced by `{ id, ...updates }` only, dropping fields the update does not name |
| Posts.PostsStore.DeletePostAction | src/store/modules/posts.js:263-290 | a missing post throws; otherwise the key is removed and the category link to remove is returned |
| Posts.PostsStore.ToggleLike | src/store/modules/posts.js:293-335 | no user or no post throws; a truthy non-array `likes` throws a TypeError at `indexOf`, or for a string at `splice` when it contains the uid and at `push` otherwise; otherwise the likes become `Toggled` and the post with the same id is replaced |
| Posts.PostsStore.FetchPostsByCategory | src/store/modules/posts.js:338-379 | the listed, existing posts are fetched and merged into the store, with their ids newest first; a missing list merges nothing |
| Posts.PostsStore.FetchComments | src/store/modules/posts.js:381-404 | the post's list becomes the flattened snapshot, `[]` when absent; other posts unchanged |
| Posts.PostsStore.ToggleCommentLike | src/store/modules/posts.js:455-501 | without a user it throws; otherwise the comment gets `CommentLikeUpdates` and the new count is returned |
| Posts.PostsStore.DeleteCommentAction | src/store/modules/posts.js:503-539 | succeeds iff there is a user, the comment exists and the user is its author or an admin; then the comment is removed and the clamped count returned |
| Posts.PostsStore.CreateReply | src/store/modules/posts.js:541-578 | without a user it throws; otherwise the reply is written, then appended locally with its key, or the append's TypeError is rethrown |
| Posts.PostsStore.CreateComment | src/store/modules/posts.js:580-609 | always throws (reads `uid` of an undefined user) |
| Posts.PostsStore.LikeComment | src/store/modules/posts.js:611-630 | always throws: the undeclared `firebase` in the callee is read before `currentUser.uid`, giving a ReferenceError |
| Posts.PostsStore.ReplyToComment | src/store/modules/posts.js:632-653 | always throws for the same reason |
| Posts.PostsStore.GetPostById | src/store/modules/posts.js:663 | the post under that key, if any |
| Posts.PostsStore.GetCommentsByPostId | src/store/modules/posts.js:668-671 | a permutation of the post's list, newest first, sorted in place; `[]` when there is no list |
| Auth.ValidateRegistration | src/store/modules/auth.js:91-97 | passes iff all four fields are truthy and the password equals its confirmation; a missing field is reported before a mismatch |
| Auth.RegistrationErrorMessage | src/store/modules/auth.js:195-209 | the four known codes map to their messages; any other error uses its own message, else the default; never empty |
| Auth.OwnErrorsPassThrough | src/store/modules/auth.js:195-209 | the validation messages survive the mapping unchanged |
| Auth.CheckUsernameExists | src/store/modules/auth.js:478-499 | true iff some other user's truthy profile holds that username |
| Auth.NewProfile | src/store/modules/auth.js:128-132 | the new account's profile: the username, the empty avatar and the newcomer signature |
| Auth.RegisteredUser | src/store/modules/auth.js:158-173 | the stored user: uid, email, role 'user', not verified, the new profile, the default settings |
| Auth.LoginRole | src/store/modules/auth.js:288 | the user's role when truthy, else 'user' |
| Auth.RedirectFor | src/store/modules/auth.js:318 | '/admin' iff the role is 'superuser', else '/' |
| Auth.LoginRedirect | src/store/modules/auth.js:288-318 | a user lands on '/admin' iff its role is 'superuser'; without a role, on '/' |
| Auth.WithUid | src/store/modules/auth.js:272 | the user's fields plus `uid` set to the key |
| Auth.FindUserByEmail | src/store/modules/auth.js:263-275 | none iff no user has the e-mail; otherwise a user with it, with its key as uid |
| Auth.LoginUser | src/store/modules/auth.js:290-299 | exactly the eight login fields; username, avatar, signature and settings are the user's or profile's value when truthy, else their fallback |
| Auth.TrimStart | src/store/modules/auth.js:389 | drops exactly the leading white space |
| Auth.TrimEnd | src/store/modules/auth.js:389 | drops exactly the trailing white space |
| Auth.TrimEmptyIffBlank | src/store/modules/auth.js:389-391 | the trimmed name is empty iff every character is white space |
| Auth.ProfileWrite | src/store/modules/auth.js:397-400 | the written profile has the new username and empty avatar and signature |
| Auth.WithProfileField | src/store/modules/auth.js:614-633 | missing user and profile are created, one profile field is set, and every other field is kept |
| Auth.MergedProfileFields | src/store/modules/auth.js:600-607 | the incoming fields win, the old profile's other fields stay, nothing else appears, and the rest of the user is unchanged |
| Auth.AuthStore.constructor | src/store/modules/auth.js:16-28 | signed out, no token, no handle |
| Auth.AuthStore.CurrentUid | src/store/modules/auth.js:394 | `state.user?.uid` |
| Auth.AuthStore.SetUser | src/store/modules/auth.js:575-589 | replaces the user |
| Auth.AuthStore.SetAuthenticated | src/store/modules/auth.js:591-593 | sets the flag only |
| Auth.AuthStore.SetLoading | src/store/modules/auth.js:594-596 | sets the flag only |
| Auth.AuthStore.SetError | src/store/modules/auth.js:597-599 | sets the error only |
| Auth.AuthStore.SetToken | src/store/modules/auth.js:623-625 | sets the token only |
| Auth.AuthStore.UpdateUserProfile | src/store/modules/auth.js:600-613 | the profile is merged; a null or undefined profile then throws a TypeError |
| Auth.AuthStore.UpdateUsername | src/store/modules/auth.js:614-622 | creates the missing containers and sets `profile.username` |
| Auth.AuthStore.UpdateUserAvatar | src/store/modules/auth.js:626-633 | a no-op without a user; otherwise sets `profile.avatarUrl` |
| Auth.AuthStore.UpdateUserUsername | src/store/modules/auth.js:634-639 | sets the user's own `username` when there is a user |
| Auth.AuthStore.SetEmailVerified | src/store/modules/auth.js:640-645 | sets `emailVerified` when there is a user |
| Auth.AuthStore.SetAuthUnsubscribe | src/store/modules/auth.js:646-651 | the held handle, if any, is called once, then the new one is held |
| Auth.AuthStore.GetUserId | src/store/modules/auth.js:37-39 | the user's uid, or the stored id without a user |
| Auth.AuthStore.GetUsername | src/store/modules/auth.js:40-49 | profile username, then user name, then the stored name, then 'Гость' |
| Auth.AuthStore.GetUserAvatar | src/store/modules/auth.js:50-58 | the same chain, ending in '/image/empty_avatar.png' |
| Auth.AuthStore.GetUserSignature | src/store/modules/auth.js:59-64 | the same chain, ending in '' |
| Auth.AuthStore.IsSuperUser | src/store/modules/auth.js:65-67 | null without a user, else whether the role is 'superuser' |
| Auth.AuthStore.UserRole | src/store/modules/auth.js:68-73 | the role when truthy, else null |
| Auth.AuthStore.IsEmailVerified | src/store/modules/auth.js:74-76 | the user's flag, or whether the stored flag is "true" |
| Auth.AuthStore.GetUserSettings | src/store/modules/auth.js:77-83 | the user's settings when truthy, else the parsed stored settings, else null |
| Auth.AuthStore.Registration | src/store/modules/auth.js:87-211 | a validation or taken-name failure throws before any change; a failed sign-up keeps the early username; success stores the new user, the flag and the token |
| Auth.AuthStore.CompleteSignUp | src/store/modules/auth.js:134-173 | the stored user is the registered record; the session is marked signed in with the token |
| Auth.AuthStore.Login | src/store/modules/auth.js:213-332 | an unknown e-mail or a failed sign-in reports the error and changes nothing; success stores the login record with its redirect |
| Auth.AuthStore.Logout | src/store/modules/auth.js:334-359 | a failed sign-out rethrows and changes nothing; success clears the session and calls the held handle twice |
| Auth.AuthStore.UpdateUserAvatarAction | src/store/modules/auth.js:361-381 | without a uid nothing happens; otherwise that uid's avatar is written and set locally |
| Auth.AuthStore.UpdateUsernameAction | src/store/modules/auth.js:387-410 | a blank name or a missing uid throws; otherwise `ProfileWrite` is written and the local username set |

## Left out

- Remote reads and writes, HTTP requests, file compression and `FileReader`. Their results are parameters, and the values they would write are returned.
- Failed remote calls are not modelled in `fetchPostById`, `createPost`, `updatePost`, `deletePost`, `toggleLike`, `fetchPostsByCategory`, `fetchComments`, `toggleCommentLike`, `deleteComment` and `createReply` in posts.js, in `updateUserAvatar` and `updateUsername` in auth.js, and for the upload request of `uploadImage`. Their parameters describe calls that succeed, so the `SET_ERROR` and rethrow that such a failure causes is not captured.
- Comments.CommentsStore.AddReplyAction: a failed read of the author's profile, which records its message with `SET_ERROR`, writes nothing and resolves to `{ success: false }`, is not modelled; the profile is a parameter read successfully.
- Auth.AuthStore.Registration: a failed read of the user tree in `checkUsernameExists`, which is rethrown through the same error mapping, is not modelled.
- Js.Member: reading a property of `null` or `undefined` gives `Undefined`, as with `?.`. Where plain `.` would throw instead, the model states the throw only in Reply.ProfileFor.
- localStorage writes, including `localStorage.clear()` in `SET_USER`. The getters take the stored strings as a map.
- The push listeners registered by `fetchReplies` and `fetchComments` and by `initAuth`. Only a single delivered snapshot is modelled; delivery order and timing are concurrency.
- Interleaving of awaited read-then-write steps, such as lost counter updates between sessions. Each action runs to completion on the values passed in.
- `uploadMultipleImages` and `convertToDataUrl` in picture.js. They are `Promise.all` over uploads and a file read.
- Object key order. Maps stand for objects, so `for ... in`, `Object.keys`, `Object.values` and `forEach` may visit keys in any order. Each contract holds for every order.
- Object identity. Equality is structural, where `===` on objects compares references.
- Numbers are integers. Floating point, `NaN` and ISO-string timestamps are not modelled.
- Pagination.TotalPages: requires a positive page size; `Math.ceil` on a zero page size is not modelled.
- Pagination.PagedItems: requires a page of at least 1; negative `slice` bounds are not modelled.
- Picture.PictureStore.RemoveImage: takes a non-negative index; `splice` with a negative index is not modelled.
- Posts.PostsStore.GetCommentsByPostId: requires integer `createdAt` on the stored comments. Sort stability is not stated.
- Posts.PostsStore.FetchPostsByCategory: requires integer `createdAt` on the fetched posts.
- Posts.PostsStore.ToggleCommentLike: requires the stored count to be a number or falsy. A string count would concatenate.
- Posts.PostsStore.DeleteCommentAction: requires the post's `commentsCount` to be a number or falsy.
- The earlier `createComment` (posts.js:406) is replaced by the later one. Only its counter arithmetic is modelled, by `Posts.CommentsCountAfterCreate`.
- Auth.AuthStore.UpdateUsername: requires `user.profile` to be an object or falsy. Assigning into a primitive throws in strict mode, which is not modelled. UpdateUserAvatar, UpdateUserAvatarAction, UpdateUsernameAction and Registration have the same requirement.
- Auth.AuthStore.Login: the administrator branch, chosen when the lower-cased e-mail is "superuser", is only reported as `AdminBranch`. The model leaves the state unchanged there. The credential check and what that branch stores are not modelled.
- Auth.AuthStore.Login: the sign-out attempted after a failure, and an exception while reading the user tree, are not modelled.
- Auth.AuthStore.Registration: the verification e-mail and the remote write of the new user are not modelled. A failure of that write would go through the same error mapping.
- Auth.AuthStore.UpdateUsernameAction: the commit to the separate profile module is not modelled, because that module is not part of this model.
- The TypeError texts are descriptive, not the engine's exact wording. `likeComment`'s ReferenceError assumes no global `firebase` is defined outside these modules.
- `fetchUserProfile`, `checkEmailVerification`, `handleEmailVerification`, `sendVerificationEmail`, `initAuth` and `setUser` in auth.js. They delegate to the authentication service, to another store module or to a listener; only the mutations they commit are modelled.
- Getters that return a state field unchanged, such as `getAllPosts`, `getCurrentPost`, `isLoading` and `getError`. Actions that only forward to one mutation, such as `setCurrentPage` and `updateUserUsername`, are modelled by that mutation.

=== FILE: auth.dfy ===
/**
 * The session store: the signed-in user record, the authenticated flag, the
 * loading flag, the last error, the token, the handle of the auth-state
 * listener and a fixed empty profile template. localStorage is passed to the
 * getters as a map from key to stored string; the remote user tree and the
 * outcomes of the authentication service calls are inputs of the actions.
 */
module Auth {
  import opened Js

  /** A listener handle; calling it releases the listener. */
  datatype Handle = Handle(id: nat)

  /** `localStorage.getItem(key)`: the stored string, or null. */
  function Stored(storage: map<string, string>, key: string): (v: Value)
    ensures key in storage ==> v == Str(storage[key])
    ensures key !in storage ==> v == Null
  {
    if key in storage then Str(storage[key]) else Null
  }

  /** `state.userProfile`: a template nothing ever changes. */
  const EmptyProfile: Record := map["username" := Str(""), "avatarUrl" := Str(""), "signature" := Str("")]

  /* ---------- registration ---------- */

  /** The checks `registration` makes before anything else: every field
      present, and the password confirmed. */
  function ValidateRegistration(userData: Record): (r: Option<string>)
    ensures r.None? <==>
      Truthy(Get(userData, "username")) && Truthy(Get(userData, "email")) &&
      Truthy(Get(userData, "password")) && Truthy(Get(userData, "passwordConfirmation")) &&
      Get(userData, "password") == Get(userData, "passwordConfirmation")
    ensures r.Some? && !(Truthy(Get(userData, "username")) && Truthy(Get(userData, "email")) &&
                         Truthy(Get(userData, "password")) && Truthy(Get(userData, "passwordConfirmation"))) ==>
      r.value == "Пожалуйста, заполните все поля."
    ensures r.Some? && Truthy(Get(userData, "username")) && Truthy(Get(userData, "email")) &&
            Truthy(Get(userData, "password")) && Truthy(Get(userData, "passwordConfirmation")) ==>
      r.value == "Пароли не совпадают"
  {
    if !Truthy(Get(userData, "username")) || !Truthy(Get(userData, "email")) ||
       !Truthy(Get(userData, "password")) || !Truthy(Get(userData, "passwordConfirmation")) then
      Some("Пожалуйста, заполните все поля.")
    else if Get(userData, "password") != Get(userData, "passwordConfirmation") then
      Some("Пароли не совпадают")
    else None
  }

  /** The message `registration` rethrows for a caught error with the given
      `code` and `message`. */
  function RegistrationErrorMessage(code: Value, message: string): (r: string)
    ensures r != ""
    ensures code == Str("auth/email-already-in-use") ==> r == "Этот email уже используется"
    ensures code == Str("auth/invalid-email") ==> r == "Некорректный email адрес"
    ensures code == Str("auth/operation-not-allowed") ==> r == "Регистрация с email и паролем отключена"
    ensures code == Str("auth/weak-password") ==> r == "Пароль слишком слабый"
    ensures !(code in KnownCodes()) && message != "" ==> r == message
    ensures !(code in KnownCodes()) && message == "" ==> r == "Произошла ошибка при регистрации"
  {
    if code == Str("auth/email-already-in-use") then "Этот email уже используется"
    else if code == Str("auth/invalid-email") then "Некорректный email адрес"
    else if code == Str("auth/operation-not-allowed") then "Регистрация с email и паролем отключена"
    else if code == Str("auth/weak-password") then "Пароль слишком слабый"
    else if message != "" then message
    else "Произошла ошибка при регистрации"
  }

  function KnownCodes(): set<Value>
  {
    {Str("auth/email-already-in-use"), Str("auth/invalid-email"),
     Str("auth/operation-not-allowed"), Str("auth/weak-password")}
  }

  /** An error `registration` throws itself has no code, so its message
      passes through the mapping unchanged. */
  lemma OwnErrorsPassThrough(userData: Record)
    requires ValidateRegistration(userData).Some?
    ensures RegistrationErrorMessage(Undefined, ValidateRegistration(userData).value) == ValidateRegistration(userData).value
  {
  }

  /** `users[userId]` claims `username` for someone other than the current
      user: its profile is truthy and holds that username. */
  predicate ClaimsUsername(users: map<string, Value>, userId: string, username: Value, currentUid: Value)
    requires userId in users
  {
    var profile := Member(users[userId], "profile");
    Truthy(profile) && Member(profile, "username") == username && Str(userId) != currentUid
  }

  /** `checkUsernameExists`: the `for ... in` loop with its early return.
      `users` is the users tree (empty when it does not exist). */
  method CheckUsernameExists(users: map<string, Value>, username: Value, currentUid: Value) returns (taken: bool)
    ensures taken <==> UsernameTaken(users, username, currentUid)
  {
    var todo := users.Keys;
    while todo != {}
      invariant todo <= users.Keys
      invariant forall id :: id in users && id !in todo ==> !ClaimsUsername(users, id, username, currentUid)
      decreases todo
    {
      var id :| id in todo;
      if ClaimsUsername(users, id, username, currentUid) {
        return true;
      }
      todo := todo - {id};
    }
    taken := false;
  }

  predicate UsernameTaken(users: map<string, Value>, username: Value, currentUid: Value)
  {
    exists id :: id in users && ClaimsUsername(users, id, username, currentUid)
  }

  /** The form is valid and the username free, so the account is requested. */
  predicate Admitted(userData: Record, users: map<string, Value>, currentUid: Value)
  {
    ValidateRegistration(userData).None? && !UsernameTaken(users, Get(userData, "username"), currentUid)
  }

  /** What the account-creation call gave: the new user's id and token, or
      an error code and message. */
  datatype SignUp = SignedUp(uid: Value, accessToken: Value) | SignUpFailed(code: Value, message: string)

  /** The settings a new account starts with. */
  const DefaultSettings: Value :=
    Obj(map["profileVisibility" := Bool(true), "notifyMessages" := Bool(true),
            "notifyReplies" := Bool(true), "theme" := Str("light")])

  /** The profile a new account starts with. */
  function NewProfile(username: Value): (r: Record)
    ensures r.Keys == {"username", "avatarUrl", "signature"}
    ensures r["username"] == username && r["avatarUrl"] == Str("/image/empty_avatar.png")
    ensures r["signature"] == Str("Новый пользователь")
  {
    map["username" := username, "avatarUrl" := Str("/image/empty_avatar.png"), "signature" := Str("Новый пользователь")]
  }

  /** The user record `registration` stores after the account is created. */
  function RegisteredUser(userData: Record, uid: Value): (r: Record)
    ensures r.Keys == {"uid", "email", "role", "emailVerified", "profile", "settings"}
    ensures r["uid"] == uid && r["email"] == Get(userData, "email") && r["role"] == Str("user")
    ensures r["emailVerified"] == Bool(false) && r["settings"] == DefaultSettings
    ensures r["profile"] == Obj(NewProfile(Get(userData, "username")))
  {
    map["uid" := uid, "email" := Get(userData, "email"), "role" := Str("user"), "emailVerified" := Bool(false),
        "profile" := Obj(NewProfile(Get(userData, "username"))), "settings" := DefaultSettings]
  }

  /* ---------- login ---------- */

  /** ASCII lower case. For the one comparison made with it (against
      "superuser") this agrees with full `toLowerCase`: no other character
      lowers to one of those letters. */
  function LowerChar(c: char): char
  {
    if 'A' <= c <= 'Z' then (c as int + 32) as char else c
  }

  function Lower(s: string): (r: string)
    ensures |r| == |s|
    ensures forall i :: 0 <= i < |s| ==> r[i] == LowerChar(s[i])
  {
    if s == "" then "" else [LowerChar(s[0])] + Lower(s[1..])
  }

  /** The e-mail that selects the administrator branch of `login`. */
  predicate IsAdminLogin(email: string)
  {
    Lower(email) == "superuser"
  }

  /** `userData.role || 'user'` */
  function LoginRole(userData: Record): (r: Value)
    ensures Truthy(r)
    ensures Truthy(Get(userData, "role")) ==> r == Get(userData, "role")
    ensures !Truthy(Get(userData, "role")) ==> r == Str("user")
  {
    Or(Get(userData, "role"), Str("user"))
  }

  /** The page `login` sends the user to. */
  function RedirectFor(role: Value): (r: string)
    ensures r == "/admin" <==> role == Str("superuser")
    ensures r != "/admin" ==> r == "/"
  {
    if role == Str("superuser") then "/admin" else "/"
  }

  /** A user record without a role lands on "/"; only the superuser role
      reaches "/admin". */
  lemma LoginRedirect(userData: Record)
    ensures RedirectFor(LoginRole(userData)) == "/admin" <==> Get(userData, "role") == Str("superuser")
    ensures !Truthy(Get(userData, "role")) ==> RedirectFor(LoginRole(userData)) == "/"
  {
  }

  /** `{ ...user, uid: key }` for the user found by e-mail. */
  function WithUid(user: Value, key: string): (r: Record)
    ensures r.Keys == SpreadValue(user).Keys + {"uid"}
    ensures r["uid"] == Str(key)
    ensures forall f :: f in SpreadValue(user) && f != "uid" ==> f in r && r[f] == SpreadValue(user)[f]
  {
    Spread(SpreadValue(user), map["uid" := Str(key)])
  }

  /** The `forEach` over the users: every user is visited and the last one
      with the e-mail wins. Key order is not modelled, so any matching user
      may be the one kept. */
  method FindUserByEmail(users: map<string, Value>, email: Value) returns (found: Option<Record>)
    ensures found.None? <==> forall k :: k in users ==> Member(users[k], "email") != email
    ensures found.Some? ==> exists k :: k in users && Member(users[k], "email") == email && found.value == WithUid(users[k], k)
  {
    found := None;
    var todo := users.Keys;
    while todo != {}
      invariant todo <= users.Keys
      invariant found.None? <==> forall k :: k in users && k !in todo ==> Member(users[k], "email") != email
      invariant found.Some? ==> exists k :: k in users && Member(users[k], "email") == email && found.value == WithUid(users[k], k)
      decreases todo
    {
      var k :| k in todo;
      if Member(users[k], "email") == email {
        found := Some(WithUid(users[k], k));
      }
      todo := todo - {k};
    }
  }

  /** Some user in the tree has this e-mail. */
  predicate EmailRegistered(users: map<string, Value>, email: Value)
  {
    exists k :: k in users && Member(users[k], "email") == email
  }

  /** `u` is the record `login` builds from some user with this e-mail and
      the signed-in account. */
  predicate StoredLogin(users: map<string, Value>, email: Value, signIn: SignIn, u: Record)
    requires signIn.SignedIn?
  {
    exists k :: k in users && Member(users[k], "email") == email && u == LoginUser(WithUid(users[k], k), signIn.uid, signIn.email, signIn.emailVerified)
  }

  /** What the sign-in call gave. */
  datatype SignIn =
    | SignedIn(uid: Value, email: Value, emailVerified: Value, accessToken: Value)
    | SignInFailed(code: Value, message: Value)

  /** What `login` resolves to. The administrator branch is only reported. */
  datatype LoginResult = LoggedIn(user: Record, redirectTo: string) | LoginError(message: Value, code: Value) | AdminBranch

  /** The user record `login` stores. */
  function LoginUser(userData: Record, uid: Value, email: Value, emailVerified: Value): (r: Record)
    ensures r.Keys == {"uid", "email", "username", "role", "emailVerified", "avatarUrl", "signature", "settings"}
    ensures r["uid"] == uid && r["email"] == email && r["emailVerified"] == emailVerified
    ensures r["role"] == LoginRole(userData)
    ensures Truthy(Get(userData, "username")) ==> r["username"] == Get(userData, "username")
    ensures !Truthy(Get(userData, "username")) ==> r["username"] == Member(Get(userData, "profile"), "username")
    ensures Truthy(r["avatarUrl"]) && (Truthy(Member(Get(userData, "profile"), "avatarUrl")) ==>
      r["avatarUrl"] == Member(Get(userData, "profile"), "avatarUrl"))
    ensures !Truthy(Member(Get(userData, "profile"), "avatarUrl")) ==> r["avatarUrl"] == Str("/image/empty_avatar.png")
    ensures Truthy(Member(Get(userData, "profile"), "signature")) ==>
      r["signature"] == Member(Get(userData, "profile"), "signature")
    ensures !Truthy(Member(Get(userData, "profile"), "signature")) ==> r["signature"] == Str("")
    ensures Truthy(r["settings"])
    ensures Truthy(Get(userData, "settings")) ==> r["settings"] == Get(userData, "settings")
    ensures !Truthy(Get(userData, "settings")) ==> r["settings"] == Obj(map[])
  {
    var profile := Get(userData, "profile");
    map["uid" := uid, "email" := email,
        "username" := Or(Get(userData, "username"), Member(profile, "username")),
        "role" := LoginRole(userData), "emailVerified" := emailVerified,
        "avatarUrl" := Or(Member(profile, "avatarUrl"), Str("/image/empty_avatar.png")),
        "signature" := Or(Member(profile, "signature"), Str("")),
        "settings" := Or(Get(userData, "settings"), Obj(map[]))]
  }

  /* ---------- updateUsername ---------- */

  /** The characters `String.prototype.trim` removes: white space and line
      terminators. */
  predicate IsJsWhitespace(c: char)
  {
    c == '\t' || c == '\n' || c == '\U{000B}' || c == '\U{000C}' || c == '\r' || c == ' ' ||
    c == '\U{00A0}' || c == '\U{1680}' || ('\U{2000}' <= c <= '\U{200A}') ||
    c == '\U{2028}' || c == '\U{2029}' || c == '\U{202F}' || c == '\U{205F}' ||
    c == '\U{3000}' || c == '\U{FEFF}'
  }

  function TrimStart(s: string): (r: string)
    ensures |r| <= |s| && r == s[|s| - |r|..]
    ensures r != "" ==> !IsJsWhitespace(r[0])
    ensures forall i :: 0 <= i < |s| - |r| ==> IsJsWhitespace(s[i])
  {
    if s != "" && IsJsWhitespace(s[0]) then TrimStart(s[1..]) else s
  }

  function TrimEnd(s: string): (r: string)
    ensures |r| <= |s| && r == s[..|r|]
    ensures r != "" ==> !IsJsWhitespace(r[|r| - 1])
    ensures forall i :: |r| <= i < |s| ==> IsJsWhitespace(s[i])
  {
    if s != "" && IsJsWhitespace(s[|s| - 1]) then TrimEnd(s[..|s| - 1]) else s
  }

  /** `s.trim()` */
  function Trim(s: string): string
  {
    TrimEnd(TrimStart(s))
  }

  /** `!username.trim()` holds exactly for strings made only of white space. */
  lemma TrimEmptyIffBlank(s: string)
    ensures Trim(s) == "" <==> forall i :: 0 <= i < |s| ==> IsJsWhitespace(s[i])
  {
    var t := TrimStart(s);
    if Trim(s) == "" {
      forall i | 0 <= i < |s|
        ensures IsJsWhitespace(s[i])
      {
        if i >= |s| - |t| {
          assert s[i] == t[i - (|s| - |t|)];
        }
      }
    } else {
      var r := Trim(s);
      assert !IsJsWhitespace(r[0]);
      assert r[0] == t[0] == s[|s| - |t|];
    }
  }

  /** The profile `updateUsername` writes remotely: the empty template with
      the new username, which blanks the stored avatar and signature. */
  function ProfileWrite(username: string): (r: Record)
    ensures r.Keys == {"username", "avatarUrl", "signature"}
    ensures r["username"] == Str(username)
    ensures r["avatarUrl"] == Str("") && r["signature"] == Str("")
  {
    Spread(EmptyProfile, map["username" := Str(username)])
  }

  /* ---------- the user record's profile ---------- */

  /** The profile slot can take a field: it is an object, or falsy (and then
      replaced by `{}` first). */
  predicate ProfileWritable(u: Record)
  {
    Get(u, "profile").Obj? || !Truthy(Get(u, "profile"))
  }

  /** The user record after `state.user.profile[f] = v`, with a missing user
      or profile created empty first. */
  function WithProfileField(user: Option<Record>, f: string, v: Value): (r: Record)
    requires user.Some? ==> ProfileWritable(user.value)
    ensures "profile" in r && r["profile"].Obj?
    ensures f in r["profile"].fields && r["profile"].fields[f] == v
    ensures user.Some? && Get(user.value, "profile").Obj? ==>
      r["profile"].fields == Get(user.value, "profile").fields[f := v]
    ensures user.Some? && !Truthy(Get(user.value, "profile")) ==> r["profile"].fields == map[f := v]
    ensures user.None? ==> r == map["profile" := Obj(map[f := v])]
    ensures user.Some? ==> r.Keys == user.value.Keys + {"profile"}
    ensures user.Some? ==> forall k :: k in user.value && k != "profile" ==> r[k] == user.value[k]
  {
    var u := if user.Some? then user.value else map[];
    var p := Get(u, "profile");
    var fields := if p.Obj? then p.fields else map[];
    u["profile" := Obj(fields[f := v])]
  }

  /** The user record after `UPDATE_USER_PROFILE`: the old profile (or `{}`)
      with the incoming fields spread over it. */
  function MergedProfile(user: Option<Record>, incoming: Value): Record
  {
    var u := if user.Some? then user.value else map[];
    var old_profile := Or(Get(u, "profile"), Obj(map[]));
    u["profile" := Obj(Spread(SpreadValue(old_profile), SpreadValue(incoming)))]
  }

  /** The merge keeps every field of the old profile the incoming one does
      not set, takes every incoming field, adds nothing else, and leaves the
      rest of the user record alone. */
  lemma MergedProfileFields(user: Option<Record>, incoming: Value)
    ensures var r := MergedProfile(user, incoming);
      && "profile" in r && r["profile"].Obj?
      && (forall k :: k in SpreadValue(incoming) ==>
            k in r["profile"].fields && r["profile"].fields[k] == SpreadValue(incoming)[k])
      && (user.Some? ==> forall k :: k in SpreadValue(Get(user.value, "profile")) && k !in SpreadValue(incoming) ==>
            k in r["profile"].fields && r["profile"].fields[k] == SpreadValue(Get(user.value, "profile"))[k])
      && (forall k :: k in r["profile"].fields ==>
            k in SpreadValue(incoming) || (user.Some? && k in SpreadValue(Get(user.value, "profile"))))
      && (user.Some? ==> r.Keys == user.value.Keys + {"profile"})
      && (user.Some? ==> forall k :: k in user.value && k != "profile" ==> r[k] == user.value[k])
      && (user.None? ==> r.Keys == {"profile"})
  {
  }

  class AuthStore {
    var user: Option<Record>
    var isAuthenticated: bool
    var loading: bool
    var error: Value
    var token: Value
    var authUnsubscribe: Option<Handle>
    /** The listener handles called so far, in call order. */
    var released: seq<Handle>
    const userProfile: Record := EmptyProfile

    constructor ()
      ensures user.None? && !isAuthenticated && !loading && error == Null && token == Null
      ensures authUnsubscribe.None? && released == []
    {
      user := None;
      isAuthenticated := false;
      loading := false;
      error := Null;
      token := Null;
      authUnsubscribe := None;
      released := [];
    }

    /** The user's profile slot can take a field. */
    predicate ProfileSlotOk()
      reads this
    {
      user.Some? ==> ProfileWritable(user.value)
    }

    /** `state.user?.uid` */
    function CurrentUid(): (v: Value)
      reads this
      ensures user.None? ==> v == Undefined
      ensures user.Some? ==> v == Get(user.value, "uid")
    {
      if user.Some? then Get(user.value, "uid") else Undefined
    }

    /* ----- mutations ----- */

    /** `SET_USER`; the localStorage side effects are not modelled. */
    method SetUser(u: Option<Record>)
      modifies this`user
      ensures user == u
    {
      user := u;
    }

    method SetAuthenticated(value: bool)
      modifies this`isAuthenticated
      ensures isAuthenticated == value
    {
      isAuthenticated := value;
    }

    method SetLoading(value: bool)
      modifies this`loading
      ensures loading == value
    {
      loading := value;
    }

    method SetError(e: Value)
      modifies this`error
      ensures error == e
    {
      error := e;
    }

    method SetToken(t: Value)
      modifies this`token
      ensures token == t
    {
      token := t;
    }

    /** `UPDATE_USER_PROFILE`. The merge always happens; reading
        `profile.username` afterwards throws when the incoming profile is
        null or undefined. */
    method UpdateUserProfile(profile: Value) returns (res: Outcome)
      modifies this`user
      ensures user == Some(MergedProfile(old(user), profile))
      ensures res.Fails? <==> profile.Null? || profile.Undefined?
      ensures res.Fails? ==> res.err.TypeError?
    {
      user := Some(MergedProfile(user, profile));
      if profile.Null? || profile.Undefined? {
        res := Fails(TypeError("Cannot read properties of " + (if profile.Null? then "null" else "undefined") + " (reading 'username')"));
      } else {
        res := Done;
      }
    }

    /** `UPDATE_USERNAME`: creates the missing user and profile. */
    method UpdateUsername(username: Value)
      requires ProfileSlotOk()
      modifies this`user
      ensures user == Some(WithProfileField(old(user), "username", username))
    {
      user := Some(WithProfileField(user, "username", username));
    }

    /** `UPDATE_USER_AVATAR`: does nothing without a user. */
    method UpdateUserAvatar(avatarUrl: Value)
      requires ProfileSlotOk()
      modifies this`user
      ensures old(user).None? ==> user.None?
      ensures old(user).Some? ==> user == Some(WithProfileField(old(user), "avatarUrl", avatarUrl))
    {
      if user.Some? {
        user := Some(WithProfileField(user, "avatarUrl", avatarUrl));
      }
    }

    /** `UPDATE_USER_USERNAME`: sets the user's own `username` (not the
        profile's); does nothing without a user. */
    method UpdateUserUsername(username: Value)
      modifies this`user
      ensures old(user).None? ==> user.None?
      ensures old(user).Some? ==> user == Some(old(user).value["username" := username])
    {
      if user.Some? {
        user := Some(user.value["username" := username]);
      }
    }

    /** `setEmailVerified`: does nothing without a user. */
    method SetEmailVerified(emailVerified: Value)
      modifies this`user
      ensures old(user).None? ==> user.None?
      ensures old(user).Some? ==> user == Some(old(user).value["emailVerified" := emailVerified])
    {
      if user.Some? {
        user := Some(user.value["emailVerified" := emailVerified]);
      }
    }

    /** `SET_AUTH_UNSUBSCRIBE`: the handle held before, if any, is called
        once, then the new one is held. */
    method SetAuthUnsubscribe(h: Option<Handle>)
      modifies this`authUnsubscribe, this`released
      ensures authUnsubscribe == h
      ensures old(authUnsubscribe).Some? ==> released == old(released) + [old(authUnsubscribe).value]
      ensures old(authUnsubscribe).None? ==> released == old(released)
    {
      if authUnsubscribe.Some? {
        released := released + [authUnsubscribe.value];
      }
      authUnsubscribe := h;
    }

    /* ----- getters; `storage` is localStorage ----- */

    /** `getUserId` as it stands after the shadowing: the user's uid, or the
        stored id when there is no user. */
    function GetUserId(storage: map<string, string>): (v: Value)
      reads this
      ensures user.Some? ==> v == Get(user.value, "uid")
      ensures user.None? ==> v == Stored(storage, "userId")
    {
      if user.Some? then Get(user.value, "uid") else Stored(storage, "userId")
    }

    /** `state.user.profile[f]`, or undefined without a user. */
    function ProfileField(f: string): Value
      reads this
    {
      if user.Some? then Member(Get(user.value, "profile"), f) else Undefined
    }

    /** `state.user[f]`, or undefined without a user. */
    function UserField(f: string): Value
      reads this
    {
      if user.Some? then Get(user.value, f) else Undefined
    }

    function GetUsername(storage: map<string, string>): (v: Value)
      reads this
      ensures Truthy(v)
      ensures Truthy(ProfileField("username")) ==> v == ProfileField("username")
      ensures !Truthy(ProfileField("username")) && Truthy(UserField("username")) ==> v == UserField("username")
      ensures !Truthy(ProfileField("username")) && !Truthy(UserField("username")) ==>
        v == Or(Stored(storage, "username"), Str("Гость"))
    {
      Or(ProfileField("username"), Or(UserField("username"), Or(Stored(storage, "username"), Str("Гость"))))
    }

    function GetUserAvatar(storage: map<string, string>): (v: Value)
      reads this
      ensures Truthy(v)
      ensures Truthy(ProfileField("avatarUrl")) ==> v == ProfileField("avatarUrl")
      ensures !Truthy(ProfileField("avatarUrl")) && Truthy(UserField("avatarUrl")) ==> v == UserField("avatarUrl")
      ensures !Truthy(ProfileField("avatarUrl")) && !Truthy(UserField("avatarUrl")) ==>
        v == Or(Stored(storage, "userAvatarUrl"), Str("/image/empty_avatar.png"))
    {
      Or(ProfileField("avatarUrl"), Or(UserField("avatarUrl"), Or(Stored(storage, "userAvatarUrl"), Str("/image/empty_avatar.png"))))
    }

    function GetUserSignature(storage: map<string, string>): (v: Value)
      reads this
      ensures Truthy(ProfileField("signature")) ==> v == ProfileField("signature")
      ensures !Truthy(ProfileField("signature")) && Truthy(UserField("signature")) ==> v == UserField("signature")
      ensures !Truthy(ProfileField("signature")) && !Truthy(UserField("signature")) ==>
        v == Or(Stored(storage, "userSignature"), Str(""))
    {
      Or(ProfileField("signature"), Or(UserField("signature"), Or(Stored(storage, "userSignature"), Str(""))))
    }

    /** `state.user && state.user.role === 'superuser'`: null without a user. */
    function IsSuperUser(): (v: Value)
      reads this
      ensures user.None? ==> v == Null
      ensures user.Some? ==> v == Bool(Get(user.value, "role") == Str("superuser"))
    {
      if user.Some? then Bool(Get(user.value, "role") == Str("superuser")) else Null
    }

    function UserRole(): (v: Value)
      reads this
      ensures Truthy(UserField("role")) ==> v == UserField("role")
      ensures !Truthy(UserField("role")) ==> v == Null
    {
      if Truthy(UserField("role")) then UserField("role") else Null
    }

    function IsEmailVerified(storage: map<string, string>): (v: Value)
      reads this
      ensures user.Some? ==> v == Get(user.value, "emailVerified")
      ensures user.None? ==> v == Bool(Stored(storage, "emailVerified") == Str("true"))
    {
      if user.Some? then Get(user.value, "emailVerified")
      else Bool(Stored(storage, "emailVerified") == Str("true"))
    }

    /** `getUserSettings`; `parse` stands for `JSON.parse`. */
    function GetUserSettings(storage: map<string, string>, parse: string -> Value): (v: Value)
      reads this
      ensures Truthy(UserField("settings")) ==> v == UserField("settings")
      ensures !Truthy(UserField("settings")) && Truthy(Stored(storage, "userSettings")) ==>
        v == parse(storage["userSettings"])
      ensures !Truthy(UserField("settings")) && !Truthy(Stored(storage, "userSettings")) ==> v == Null
    {
      if Truthy(UserField("settings")) then UserField("settings")
      else if Truthy(Stored(storage, "userSettings")) then parse(storage["userSettings"])
      else Null
    }

    /* ----- actions ----- */

    /** `registration`: `users` is the users tree read by the username check
        and `signUp` the account-creation outcome. The profile username is
        set before the account exists, so a failed sign-up leaves it in
        place. */
    method Registration(userData: Record, users: map<string, Value>, signUp: SignUp) returns (res: Result<Record>)
      requires ProfileSlotOk()
      modifies this`user, this`isAuthenticated, this`token
      ensures ValidateRegistration(userData).Some? ==> res == Throws(Error(ValidateRegistration(userData).value))
      ensures ValidateRegistration(userData).None? && UsernameTaken(users, Get(userData, "username"), old(CurrentUid())) ==>
        res == Throws(Error("Пользователь с таким именем уже существует"))
      ensures res.Throws? && !Admitted(userData, users, old(CurrentUid())) ==> user == old(user)
      ensures res.Throws? ==> isAuthenticated == old(isAuthenticated) && token == old(token)
      ensures Admitted(userData, users, old(CurrentUid())) && signUp.SignUpFailed? ==>
        res == Throws(Error(RegistrationErrorMessage(signUp.code, signUp.message)))
      ensures Admitted(userData, users, old(CurrentUid())) && signUp.SignUpFailed? ==>
        user == Some(WithProfileField(old(user), "username", Get(userData, "username")))
      ensures Admitted(userData, users, old(CurrentUid())) && signUp.SignedUp? ==>
        res == Ok(RegisteredUser(userData, signUp.uid)) && user == Some(RegisteredUser(userData, signUp.uid))
      ensures Admitted(userData, users, old(CurrentUid())) && signUp.SignedUp? ==>
        isAuthenticated && token == signUp.accessToken
    {
      var invalid := ValidateRegistration(userData);
      if invalid.Some? {
        return Throws(Error(RegistrationErrorMessage(Undefined, invalid.value)));
      }
      var taken := CheckUsernameExists(users, Get(userData, "username"), CurrentUid());
      if taken {
        return Throws(Error(RegistrationErrorMessage(Undefined, "Пользователь с таким именем уже существует")));
      }
      UpdateUsername(Get(userData, "username"));
      if signUp.SignUpFailed? {
        return Throws(Error(RegistrationErrorMessage(signUp.code, signUp.message)));
      }
      var stored := CompleteSignUp(userData, signUp.uid, signUp.accessToken);
      res := Ok(stored);
    }

    /** The part of `registration` after the account exists: the profile is
        merged into the state, then the whole user record is replaced and the
        session marked signed in. */
    method CompleteSignUp(userData: Record, uid: Value, accessToken: Value) returns (stored: Record)
      modifies this`user, this`isAuthenticated, this`token
      ensures stored == RegisteredUser(userData, uid) && user == Some(stored)
      ensures isAuthenticated && token == accessToken
    {
      var _ := UpdateUserProfile(Obj(NewProfile(Get(userData, "username"))));
      stored := RegisteredUser(userData, uid);
      SetUser(Some(stored));
      SetAuthenticated(true);
      SetToken(accessToken);
    }

    /** `login`: `users` is the users tree and `signIn` the sign-in outcome.
        The administrator branch is only reported. */
    method Login(email: string, users: map<string, Value>, signIn: SignIn) returns (res: LoginResult)
      modifies this`user, this`isAuthenticated, this`token
      ensures IsAdminLogin(email) ==> res == AdminBranch
      ensures !res.LoggedIn? ==> user == old(user) && isAuthenticated == old(isAuthenticated) && token == old(token)
      ensures !IsAdminLogin(email) && !EmailRegistered(users, Str(email)) ==>
        res == LoginError(Str("Данные пользователя не найдены"), Str("user-not-found"))
      ensures !IsAdminLogin(email) && EmailRegistered(users, Str(email)) && signIn.SignInFailed? ==>
        res == LoginError(signIn.message, signIn.code)
      ensures !IsAdminLogin(email) && EmailRegistered(users, Str(email)) && signIn.SignedIn? ==> res.LoggedIn?
      ensures res.LoggedIn? ==> signIn.SignedIn? && user == Some(res.user) && isAuthenticated && token == signIn.accessToken
      ensures res.LoggedIn? ==> StoredLogin(users, Str(email), signIn, res.user)
      ensures res.LoggedIn? ==> res.redirectTo == RedirectFor(res.user["role"])
    {
      if IsAdminLogin(email) {
        return AdminBranch;
      }
      var found := FindUserByEmail(users, Str(email));
      if found.None? {
        return LoginError(Str("Данные пользователя не найдены"), Str("user-not-found"));
      }
      if signIn.SignInFailed? {
        return LoginError(signIn.message, signIn.code);
      }
      var stored := LoginUser(found.value, signIn.uid, signIn.email, signIn.emailVerified);
      SetUser(Some(stored));
      SetAuthenticated(true);
      SetToken(signIn.accessToken);
      res := LoggedIn(stored, RedirectFor(LoginRole(found.value)));
    }

    /** `logout`: after a successful sign-out the session is cleared and the
        listener handle is called twice, once directly and once more by
        `SET_AUTH_UNSUBSCRIBE`, which still finds it in the slot. */
    method Logout(signOut: Outcome) returns (res: Result<bool>)
      modifies this`user, this`isAuthenticated, this`token, this`authUnsubscribe, this`released
      ensures signOut.Fails? ==> res == Throws(signOut.err) && user == old(user)
      ensures signOut.Fails? ==> isAuthenticated == old(isAuthenticated) && token == old(token)
      ensures signOut.Fails? ==> authUnsubscribe == old(authUnsubscribe) && released == old(released)
      ensures signOut.Done? ==> res == Ok(true) && user.None? && !isAuthenticated && token == Null && authUnsubscribe.None?
      ensures signOut.Done? && old(authUnsubscribe).Some? ==>
        released == old(released) + [old(authUnsubscribe).value, old(authUnsubscribe).value]
      ensures signOut.Done? && old(authUnsubscribe).None? ==> released == old(released)
    {
      if signOut.Fails? {
        return Throws(signOut.err);
      }
      SetUser(None);
      SetAuthenticated(false);
      SetToken(Null);
      if authUnsubscribe.Some? {
        released := released + [authUnsubscribe.value];
        SetAuthUnsubscribe(None);
      }
      res := Ok(true);
    }

    /** `updateUserAvatar`: nothing happens without a user or uid (the result
        is undefined); otherwise the avatar is written to that uid's profile
        (`target`), set in the state and returned. */
    method UpdateUserAvatarAction(avatarUrl: Value) returns (res: Value, target: Option<Value>)
      requires ProfileSlotOk()
      modifies this`user
      ensures !Truthy(old(CurrentUid())) ==> res == Undefined && target.None? && user == old(user)
      ensures Truthy(old(CurrentUid())) ==> res == avatarUrl && target == Some(old(CurrentUid()))
      ensures Truthy(old(CurrentUid())) ==> user == Some(WithProfileField(old(user), "avatarUrl", avatarUrl))
    {
      if !Truthy(CurrentUid()) {
        return Undefined, None;
      }
      target := Some(CurrentUid());
      UpdateUserAvatar(avatarUrl);
      res := avatarUrl;
    }

    /** `updateUsername`: the action itself resolves to `{ success: true }`;
        in its place `res` reports the profile record written remotely. */
    method UpdateUsernameAction(username: string) returns (res: Result<Record>)
      requires ProfileSlotOk()
      modifies this`user
      ensures Trim(username) == "" ==> res == Throws(Error("Имя пользователя не может быть пустым")) && user == old(user)
      ensures Trim(username) != "" && !Truthy(old(CurrentUid())) ==>
        res == Throws(Error("Пользователь не авторизован")) && user == old(user)
      ensures Trim(username) != "" && Truthy(old(CurrentUid())) ==>
        res == Ok(ProfileWrite(username)) && user == Some(WithProfileField(old(user), "username", Str(username)))
    {
      if Trim(username) == "" {
        return Throws(Error("Имя пользователя не может быть пустым"));
      }
      if !Truthy(CurrentUid()) {
        return Throws(Error("Пользователь не авторизован"));
      }
      var write := Spread(userProfile, map["username" := Str(username)]);
      UpdateUsername(Str(username));
      res := Ok(write);
    }
  }
}

=== FILE: comments.dfy ===
/**
 * The comments store: reply lists per comment id, the comment list of the
 * open post, a loading flag and the last error. Snapshots pushed by the
 * remote feed are inputs (their children in iteration order); the profile
 * read and the reply write of `addReply` are an input and an output.
 */
module Comments {
  import opened Js

  /** `{ id: key, ...value }` for one child of a snapshot. */
  function ChildRecord(key: string, value: Value): (r: Record)
    ensures "id" in r
    ensures "id" !in SpreadValue(value) ==> r["id"] == Str(key)
    ensures forall f :: f in SpreadValue(value) ==> f in r && r[f] == SpreadValue(value)[f]
    ensures forall f :: f in r && f != "id" ==> f in SpreadValue(value)
  {
    Spread(map["id" := Str(key)], SpreadValue(value))
  }

  /** The `forEach` callback of the snapshot listeners: one record per child,
      in iteration order. An absent snapshot gives no records. */
  method Flatten(snapshot: Option<seq<(string, Value)>>) returns (list: seq<Record>)
    ensures snapshot.None? ==> list == []
    ensures snapshot.Some? ==> |list| == |snapshot.value|
    ensures snapshot.Some? ==> forall i :: 0 <= i < |list| ==>
      list[i] == ChildRecord(snapshot.value[i].0, snapshot.value[i].1)
  {
    list := [];
    if snapshot.Some? {
      var children := snapshot.value;
      for i := 0 to |children|
        invariant |list| == i
        invariant forall j :: 0 <= j < i ==> list[j] == ChildRecord(children[j].0, children[j].1)
      {
        list := list + [ChildRecord(children[i].0, children[i].1)];
      }
    }
  }

  /** The signed-in user as the comments module reads it (`rootState.auth.user`). */
  datatype User = User(uid: Value)

  /** The reply `addReply` writes, with the author defaults applied to the
      profile read from `users/{uid}/profile` (`snapshot.val() || {}`). */
  function NewReply(user: User, profile: Value, content: Value, createdAt: string): (r: Record)
    ensures r.Keys == {"content", "author", "createdAt"}
    ensures r["content"] == content && r["createdAt"] == Str(createdAt)
    ensures r["author"].Obj? && r["author"].fields.Keys == {"uid", "username", "avatarUrl", "signature"}
    ensures r["author"].fields["uid"] == user.uid
    ensures Truthy(r["author"].fields["username"]) && Truthy(r["author"].fields["avatarUrl"])
    ensures Truthy(r["author"].fields["signature"])
    ensures Truthy(Member(profile, "username")) ==> r["author"].fields["username"] == Member(profile, "username")
    ensures !Truthy(Member(profile, "username")) ==> r["author"].fields["username"] == Str("Guest")
    ensures Truthy(Member(profile, "avatarUrl")) ==> r["author"].fields["avatarUrl"] == Member(profile, "avatarUrl")
    ensures !Truthy(Member(profile, "avatarUrl")) ==> r["author"].fields["avatarUrl"] == Str("/image/empty_avatar.png")
    ensures Truthy(Member(profile, "signature")) ==> r["author"].fields["signature"] == Member(profile, "signature")
    ensures !Truthy(Member(profile, "signature")) ==> r["author"].fields["signature"] == Str("New User")
  {
    var p := Or(profile, Obj(map[]));
    map[
      "content" := content,
      "author" := Obj(map[
        "uid" := user.uid,
        "username" := Or(Member(p, "username"), Str("Guest")),
        "avatarUrl" := Or(Member(p, "avatarUrl"), Str("/image/empty_avatar.png")),
        "signature" := Or(Member(p, "signature"), Str("New User"))
      ]),
      "createdAt" := Str(createdAt)
    ]
  }

  /** Truthy profile fields are copied as they are; the defaults only fill gaps. */
  lemma NewReplyKeepsProfile(user: User, profile: Value, content: Value, createdAt: string)
    requires profile.Obj?
    requires Truthy(Member(profile, "username")) && Truthy(Member(profile, "avatarUrl")) && Truthy(Member(profile, "signature"))
    ensures NewReply(user, profile, content, createdAt)["author"] ==
      Obj(map["uid" := user.uid, "username" := profile.fields["username"],
              "avatarUrl" := profile.fields["avatarUrl"], "signature" := profile.fields["signature"]])
  {
  }

  /** What `addReply` resolves to: `{ success: true }` or `{ success: false, error }`. */
  datatype AddReplyOutcome = Success | Failure(error: string)

  class CommentsStore {
    var replies: map<string, seq<Value>>
    var comments: seq<Record>
    var isLoading: bool
    var error: Value

    constructor ()
      ensures replies == map[] && comments == [] && !isLoading && error == Null
    {
      replies := map[];
      comments := [];
      isLoading := false;
      error := Null;
    }

    method SetReplies(commentId: string, list: seq<Value>)
      modifies this
      ensures replies == old(replies)[commentId := list]
      ensures comments == old(comments) && isLoading == old(isLoading) && error == old(error)
    {
      replies := replies[commentId := list];
    }

    /** A missing list is created empty, then the reply goes at its end. */
    method AddReply(commentId: string, reply: Value)
      modifies this
      ensures commentId in replies
      ensures commentId in old(replies) ==> replies[commentId] == old(replies)[commentId] + [reply]
      ensures commentId !in old(replies) ==> replies[commentId] == [reply]
      ensures forall c :: c != commentId ==> (c in replies <==> c in old(replies))
      ensures forall c :: c in old(replies) && c != commentId ==> replies[c] == old(replies)[c]
      ensures comments == old(comments) && isLoading == old(isLoading) && error == old(error)
    {
      if commentId !in replies {
        replies := replies[commentId := []];
      }
      replies := replies[commentId := replies[commentId] + [reply]];
    }

    method SetComments(list: seq<Record>)
      modifies this
      ensures comments == list
      ensures replies == old(replies) && isLoading == old(isLoading) && error == old(error)
    {
      comments := list;
    }

    method SetLoading(status: bool)
      modifies this
      ensures isLoading == status
      ensures replies == old(replies) && comments == old(comments) && error == old(error)
    {
      isLoading := status;
    }

    method SetError(e: Value)
      modifies this
      ensures error == e
      ensures replies == old(replies) && comments == old(comments) && isLoading == old(isLoading)
    {
      error := e;
    }

    /** The listener `fetchReplies` registers, run on one pushed snapshot. */
    method OnRepliesSnapshot(commentId: string, snapshot: Option<seq<(string, Value)>>)
      modifies this
      ensures commentId in replies && |replies[commentId]| == (if snapshot.Some? then |snapshot.value| else 0)
      ensures snapshot.Some? ==> forall i :: 0 <= i < |replies[commentId]| ==>
        replies[commentId][i] == Obj(ChildRecord(snapshot.value[i].0, snapshot.value[i].1))
      ensures forall c :: c != commentId ==> (c in replies <==> c in old(replies))
      ensures forall c :: c in old(replies) && c != commentId ==> replies[c] == old(replies)[c]
      ensures comments == old(comments) && isLoading == old(isLoading) && error == old(error)
    {
      var list := Flatten(snapshot);
      SetReplies(commentId, MapSeq(list, (r: Record) => Obj(r)));
    }

    /** The listener `fetchComments` registers, run on one pushed snapshot. */
    method OnCommentsSnapshot(snapshot: Option<seq<(string, Value)>>)
      modifies this
      ensures |comments| == (if snapshot.Some? then |snapshot.value| else 0)
      ensures snapshot.Some? ==> forall i :: 0 <= i < |comments| ==>
        comments[i] == ChildRecord(snapshot.value[i].0, snapshot.value[i].1)
      ensures replies == old(replies) && isLoading == old(isLoading) && error == old(error)
    {
      var list := Flatten(snapshot);
      SetComments(list);
    }

    /** `fetchReplies` and `fetchComments` as actions: the loading flag is set
        and cleared around registering the listener, so it is already false
        when the first snapshot arrives. */
    method FetchListener()
      modifies this
      ensures !isLoading
      ensures replies == old(replies) && comments == old(comments) && error == old(error)
    {
      SetLoading(true);
      SetLoading(false);
    }

    /** `addReply`: without a signed-in user nothing is written and the error
        is recorded; otherwise the reply with its author defaults is written.
        `writeError` is the message of a failed remote write, if it failed. */
    method AddReplyAction(user: Option<User>, profile: Value, content: Value, createdAt: string,
                          writeError: Option<string>)
      returns (outcome: AddReplyOutcome, written: Option<Record>)
      modifies this
      ensures user.None? ==> outcome == Failure("Пожалуйста, войдите в систему") && written.None?
      ensures user.None? ==> error == Str("Пожалуйста, войдите в систему")
      ensures user.Some? ==> written == Some(NewReply(user.value, profile, content, createdAt))
      ensures user.Some? && writeError.None? ==> outcome == Success && error == old(error)
      ensures user.Some? && writeError.Some? ==>
        outcome == Failure(writeError.value) && error == Str(writeError.value)
      ensures replies == old(replies) && comments == old(comments) && isLoading == old(isLoading)
    {
      if user.None? {
        var message := "Пожалуйста, войдите в систему";
        SetError(Str(message));
        outcome := Failure(message);
        written := None;
        return;
      }
      written := Some(NewReply(user.value, profile, content, createdAt));
      if writeError.Some? {
        SetError(Str(writeError.value));
        outcome := Failure(writeError.value);
      } else {
        outcome := Success;
      }
    }

    function GetReplies(commentId: string): (r: seq<Value>)
      reads this
      ensures commentId !in replies ==> r == []
      ensures commentId in replies ==> r == replies[commentId]
    {
      if commentId in replies then replies[commentId] else []
    }

    function HasError(): (b: bool)
      reads this
      ensures b <==> error != Null
    {
      error != Null
    }
  }
}

=== FILE: js.dfy ===
/**
 * JavaScript values as the store modules see them: the records read from the
 * remote tree, the objects built with spread syntax, and the `||` defaulting
 * used throughout. An absent property reads as `Undefined`.
 */
module Js {

  datatype Option<+T> = None | Some(value: T)

  /** What a thrown exception carries: an `Error` built by the code with its
      message, a `TypeError` raised by the engine (described by `what`), or
      the `ReferenceError` of reading an undeclared variable `name`. */
  datatype Thrown = Error(message: string) | TypeError(what: string) | ReferenceError(name: string)

  datatype Result<+T> = Ok(value: T) | Throws(err: Thrown)

  /** How a step that returns nothing ends: normally or by throwing. */
  datatype Outcome = Done | Fails(err: Thrown)

  /** `error.message`, as a caught exception records it with `SET_ERROR`. */
  function MessageOf(e: Thrown): string
  {
    match e
    case Error(message) => message
    case TypeError(what) => what
    case ReferenceError(name) => name + " is not defined"
  }

  /** A JSON-like JavaScript value; numbers are modelled as integers. */
  datatype Value =
    | Undefined
    | Null
    | Bool(b: bool)
    | Num(n: int)
    | Str(s: string)
    | Arr(items: seq<Value>)
    | Obj(fields: map<string, Value>)

  /** A plain object, by its own enumerable properties. */
  type Record = map<string, Value>

  /** JavaScript truthiness. */
  predicate Truthy(v: Value)
  {
    match v
    case Undefined => false
    case Null => false
    case Bool(b) => b
    case Num(n) => n != 0
    case Str(s) => s != ""
    case Arr(_) => true
    case Obj(_) => true
  }

  /** `r.k` on a plain object. */
  function Get(r: Record, k: string): (v: Value)
    ensures k !in r ==> v == Undefined
    ensures k in r ==> v == r[k]
  {
    if k in r then r[k] else Undefined
  }

  /** `v.k` (or `v?.k`) on any value: only objects have named properties here. */
  function Member(v: Value, k: string): (r: Value)
    ensures !v.Obj? ==> r == Undefined
    ensures v.Obj? ==> r == Get(v.fields, k)
  {
    if v.Obj? then Get(v.fields, k) else Undefined
  }

  /** `v || d` */
  function Or(v: Value, d: Value): (r: Value)
    ensures Truthy(v) ==> r == v
    ensures !Truthy(v) ==> r == d
  {
    if Truthy(v) then v else d
  }

  /** `{ ...a, ...b }` on two plain objects: later properties win. */
  function Spread(a: Record, b: Record): (r: Record)
    ensures r.Keys == a.Keys + b.Keys
    ensures forall k :: k in b ==> r[k] == b[k]
    ensures forall k :: k in a && k !in b ==> r[k] == a[k]
  {
    a + b
  }

  /** The decimal digits of a natural number, as `String(n)` writes them. */
  function NatToString(n: nat): (s: string)
    ensures |s| >= 1
    ensures forall i :: 0 <= i < |s| ==> '0' <= s[i] <= '9'
    decreases n
  {
    var d := ['0' + (n % 10) as char];
    if n < 10 then d else NatToString(n / 10) + d
  }

  function IntToString(n: int): string
  {
    if n < 0 then "-" + NatToString(-n) else NatToString(n)
  }

  /** The properties `{ ...items }` gives an array: its indices as keys. */
  function IndexedFields(items: seq<Value>): (r: Record)
    ensures |r.Keys| <= |items|
    decreases |items|
  {
    if items == [] then map[]
    else
      var prefix := IndexedFields(items[..|items| - 1]);
      prefix[NatToString(|items| - 1) := items[|items| - 1]]
  }

  function Chars(s: string): (r: seq<Value>)
    ensures |r| == |s|
    ensures forall i :: 0 <= i < |s| ==> r[i] == Str([s[i]])
  {
    if s == "" then [] else [Str([s[0]])] + Chars(s[1..])
  }

  /** The properties `{ ...v }` copies: an object's own fields, the indices of
      an array or a string, and nothing for any other primitive. */
  function SpreadValue(v: Value): (r: Record)
    ensures v.Obj? ==> r == v.fields
    ensures !v.Obj? && !v.Arr? && !v.Str? ==> r == map[]
  {
    match v
    case Obj(fields) => fields
    case Arr(items) => IndexedFields(items)
    case Str(s) => IndexedFields(Chars(s))
    case _ => map[]
  }

  /** The property key `o[v]` uses: `String(v)`. */
  function PropertyKey(v: Value): (k: string)
    ensures v.Str? ==> k == v.s
  {
    match v
    case Undefined => "undefined"
    case Null => "null"
    case Bool(b) => if b then "true" else "false"
    case Num(n) => IntToString(n)
    case Str(s) => s
    case Arr(items) => JoinKeys(items)
    case Obj(_) => "[object Object]"
  }

  /** `items.join(",")`, where null and undefined elements become "". */
  function JoinKeys(items: seq<Value>): string
    decreases items
  {
    if items == [] then ""
    else
      var head := if items[0].Undefined? || items[0].Null? then "" else PropertyKey(items[0]);
      if |items| == 1 then head else head + "," + JoinKeys(items[1..])
  }

  /** `pat` occurs in `s` starting at position `i`. */
  predicate OccursAt(s: string, pat: string, i: nat)
  {
    i + |pat| <= |s| && s[i..i + |pat|] == pat
  }

  /** `s.includes(sub)` on strings. */
  predicate Includes(s: string, sub: string)
  {
    exists i: nat | i <= |s| :: OccursAt(s, sub, i)
  }

  /** Every element of `s` occurs once. */
  predicate NoDups<T(==)>(s: seq<T>)
  {
    forall i, j :: 0 <= i < j < |s| ==> s[i] != s[j]
  }

  /** A sequence without duplicates has as many elements as its set. */
  lemma {:induction false} DistinctCard<T>(s: seq<T>)
    requires NoDups(s)
    ensures |set x | x in s| == |s|
  {
    if s != [] {
      var t := s[1..];
      assert NoDups(t);
      DistinctCard(t);
      assert (set x | x in s) == (set x | x in t) + {s[0]};
      assert s[0] !in t;
    }
  }

  /** The position of the first `x` in `s`, as `indexOf` finds it. */
  function FirstIndex<T(==)>(s: seq<T>, x: T): (i: nat)
    requires x in s
    ensures i < |s| && s[i] == x && x !in s[..i]
  {
    if s[0] == x then 0 else 1 + FirstIndex(s[1..], x)
  }

  lemma {:induction false} FirstIndexOfPrefix<T>(s: seq<T>, t: seq<T>, x: T)
    requires x in s
    ensures x in s + t && FirstIndex(s + t, x) == FirstIndex(s, x)
  {
    if s[0] != x {
      assert (s + t)[1..] == s[1..] + t;
      FirstIndexOfPrefix(s[1..], t, x);
    }
  }

  /** `s.map(f)` */
  function MapSeq<T, U>(s: seq<T>, f: T -> U): (r: seq<U>)
    ensures |r| == |s|
    ensures forall i :: 0 <= i < |s| ==> r[i] == f(s[i])
  {
    if s == [] then [] else [f(s[0])] + MapSeq(s[1..], f)
  }

  /** `s.filter(keep)` */
  function Filter<T>(s: seq<T>, keep: T -> bool): (r: seq<T>)
    ensures |r| <= |s|
  {
    if s == [] then []
    else if keep(s[0]) then [s[0]] + Filter(s[1..], keep)
    else Filter(s[1..], keep)
  }

  /** The filter keeps exactly the elements that pass, with their
      multiplicities, and drops every other one. */
  lemma {:induction false} FilterCounts<T>(s: seq<T>, keep: T -> bool)
    ensures forall x :: x in Filter(s, keep) ==> x in s && keep(x)
    ensures forall x :: x in s ==> multiset(Filter(s, keep))[x] == if keep(x) then multiset(s)[x] else 0
  {
    if s != [] {
      FilterCounts(s[1..], keep);
      assert s == [s[0]] + s[1..];
    }
  }

  /** Filtering distributes over concatenation, so the kept elements stay in
      their original order. */
  lemma {:induction false} FilterAppend<T>(a: seq<T>, b: seq<T>, keep: T -> bool)
    ensures Filter(a + b, keep) == Filter(a, keep) + Filter(b, keep)
  {
    if a != [] {
      assert (a + b)[0] == a[0];
      assert (a + b)[1..] == a[1..] + b;
      FilterAppend(a[1..], b, keep);
      if keep(a[0]) {
        calc {
          Filter(a + b, keep);
          [a[0]] + Filter(a[1..] + b, keep);
          [a[0]] + (Filter(a[1..], keep) + Filter(b, keep));
          ([a[0]] + Filter(a[1..], keep)) + Filter(b, keep);
        }
      }
    } else {
      assert a + b == b;
    }
  }
}

=== FILE: pagination.dfy ===
/**
 * The paging store: the current page, the page size and the item total, with
 * the page-count and page-slice getters.
 */
module Pagination {

  /** `Math.ceil(totalItems / itemsPerPage)` for a positive page size. */
  function TotalPages(totalItems: int, itemsPerPage: int): (p: int)
    requires itemsPerPage > 0
    ensures p * itemsPerPage >= totalItems
    ensures (p - 1) * itemsPerPage < totalItems
  {
    (totalItems + itemsPerPage - 1) / itemsPerPage
  }

  /** `items.slice(start, end)` for `0 <= start <= end`: the bounds are clamped
      to the length of the array. */
  function Slice<T>(items: seq<T>, start: nat, end: nat): (r: seq<T>)
    requires start <= end
    ensures |r| <= end - start
    ensures start >= |items| ==> r == []
    ensures end <= |items| ==> r == items[start..end]
  {
    var lo := if start < |items| then start else |items|;
    var hi := if end < |items| then end else |items|;
    items[lo..hi]
  }

  /** The items of page `currentPage` (counted from 1). */
  function PagedItems<T>(items: seq<T>, currentPage: int, itemsPerPage: int): (r: seq<T>)
    requires currentPage >= 1 && itemsPerPage > 0
    ensures |r| <= itemsPerPage
    ensures currentPage * itemsPerPage <= |items| ==>
      r == items[(currentPage - 1) * itemsPerPage..currentPage * itemsPerPage]
    ensures (currentPage - 1) * itemsPerPage < |items| < currentPage * itemsPerPage ==>
      r == items[(currentPage - 1) * itemsPerPage..]
    ensures (currentPage - 1) * itemsPerPage >= |items| ==> r == []
  {
    var start := (currentPage - 1) * itemsPerPage;
    Slice(items, start, start + itemsPerPage)
  }

  /** The smallest page count that holds every item. */
  lemma TotalPagesIsLeast(totalItems: int, itemsPerPage: int, q: int)
    requires itemsPerPage > 0
    requires q * itemsPerPage >= totalItems
    ensures TotalPages(totalItems, itemsPerPage) <= q
  {
    var p := TotalPages(totalItems, itemsPerPage);
    if p > q {
      assert (p - 1) * itemsPerPage >= q * itemsPerPage by {
        assert p - 1 >= q;
        MulMonotone(q, p - 1, itemsPerPage);
      }
    }
  }

  lemma MulMonotone(a: int, b: int, c: int)
    requires a <= b && c > 0
    ensures a * c <= b * c
  {
    assert b * c - a * c == (b - a) * c;
  }

  /** A page past the last one is empty. */
  lemma PastLastPageIsEmpty<T>(items: seq<T>, currentPage: int, itemsPerPage: int)
    requires currentPage >= 1 && itemsPerPage > 0
    requires currentPage > TotalPages(|items|, itemsPerPage)
    ensures PagedItems(items, currentPage, itemsPerPage) == []
  {
    var p := TotalPages(|items|, itemsPerPage);
    MulMonotone(p, currentPage - 1, itemsPerPage);
  }

  /** The initial state (page 1, 10 per page, no items) has no pages. */
  lemma InitialStateHasNoPages()
    ensures TotalPages(0, 10) == 0
  {
  }

  /** Pages 1 to `n`, one after the other. */
  function FirstPages<T>(items: seq<T>, n: nat, itemsPerPage: int): seq<T>
    requires itemsPerPage > 0
  {
    if n == 0 then [] else FirstPages(items, n - 1, itemsPerPage) + PagedItems(items, n, itemsPerPage)
  }

  lemma {:induction false} FirstPagesArePrefix<T>(items: seq<T>, n: nat, itemsPerPage: int)
    requires itemsPerPage > 0
    ensures n * itemsPerPage <= |items| ==> FirstPages(items, n, itemsPerPage) == items[..n * itemsPerPage]
    ensures n * itemsPerPage > |items| ==> FirstPages(items, n, itemsPerPage) == items
  {
    if n > 0 {
      FirstPagesArePrefix(items, n - 1, itemsPerPage);
      var start := (n - 1) * itemsPerPage;
      assert start + itemsPerPage == n * itemsPerPage;
      if n * itemsPerPage <= |items| {
        assert items[..start] + items[start..n * itemsPerPage] == items[..n * itemsPerPage];
      } else if start < |items| {
        assert items[..start] + items[start..] == items;
      }
    }
  }

  /** With `totalItems` equal to the number of items, the pages 1 to
      `TotalPages` put back together are exactly the items. */
  lemma PagesCoverItems<T>(items: seq<T>, itemsPerPage: int)
    requires itemsPerPage > 0
    ensures FirstPages(items, TotalPages(|items|, itemsPerPage), itemsPerPage) == items
  {
    var p := TotalPages(|items|, itemsPerPage);
    FirstPagesArePrefix(items, p, itemsPerPage);
    if p * itemsPerPage <= |items| {
      assert p * itemsPerPage == |items|;
      assert items[..|items|] == items;
    }
  }

  /** The paging module's state. */
  class PaginationStore {
    var currentPage: int
    var itemsPerPage: int
    var totalItems: int

    constructor ()
      ensures currentPage == 1 && itemsPerPage == 10 && totalItems == 0
    {
      currentPage := 1;
      itemsPerPage := 10;
      totalItems := 0;
    }

    method SetCurrentPage(page: int)
      modifies this
      ensures currentPage == page
      ensures itemsPerPage == old(itemsPerPage) && totalItems == old(totalItems)
    {
      currentPage := page;
    }

    method SetItemsPerPage(count: int)
      modifies this
      ensures itemsPerPage == count
      ensures currentPage == old(currentPage) && totalItems == old(totalItems)
    {
      itemsPerPage := count;
    }

    method SetTotalItems(total: int)
      modifies this
      ensures totalItems == total
      ensures currentPage == old(currentPage) && itemsPerPage == old(itemsPerPage)
    {
      totalItems := total;
    }

    function GetTotalPages(): (p: int)
      reads this
      requires itemsPerPage > 0
      ensures p * itemsPerPage >= totalItems && (p - 1) * itemsPerPage < totalItems
    {
      TotalPages(totalItems, itemsPerPage)
    }

    function GetPagedItems<T>(items: seq<T>): (r: seq<T>)
      reads this
      requires currentPage >= 1 && itemsPerPage > 0
      ensures |r| <= itemsPerPage
      ensures r == PagedItems(items, currentPage, itemsPerPage)
    {
      PagedItems(items, currentPage, itemsPerPage)
    }
  }
}

=== FILE: picture.dfy ===
/**
 * The picture store: the list of uploaded image URLs, the per-post image
 * lists, the upload progress per file and the selected image. Remote reads
 * and writes of `posts/{id}/images` and `users/{id}/images` are inputs and
 * outputs of the actions; the upload request itself is an input.
 */
module Picture {
  import opened Js

  /** `list.includes(url) ? list : [...list, url]`: what `ADD_IMAGE` leaves. */
  function WithImage(list: seq<Value>, url: Value): (r: seq<Value>)
    ensures url in r
    ensures url in list ==> r == list
    ensures url !in list ==> r == list + [url]
  {
    if url in list then list else list + [url]
  }

  /** Adding a URL keeps a duplicate-free list duplicate-free. */
  lemma WithImageKeepsNoDups(list: seq<Value>, url: Value)
    requires NoDups(list)
    ensures NoDups(WithImage(list, url))
  {
  }

  /** Adding the same URL twice is the same as adding it once. */
  lemma WithImageIdempotent(list: seq<Value>, url: Value)
    ensures WithImage(WithImage(list, url), url) == WithImage(list, url)
  {
  }

  /** The list `ADD_IMAGE` builds from `images` one URL at a time. */
  function Dedup(images: seq<Value>): seq<Value>
  {
    if images == [] then []
    else WithImage(Dedup(images[..|images| - 1]), images[|images| - 1])
  }

  /** The result has no duplicates and the same URLs as the input. */
  lemma {:induction false} DedupElements(images: seq<Value>)
    ensures NoDups(Dedup(images))
    ensures forall u :: u in Dedup(images) <==> u in images
  {
    if images != [] {
      var init := images[..|images| - 1];
      DedupElements(init);
      assert images == init + [images[|images| - 1]];
    }
  }

  /** The URLs keep the order of their first occurrences in the input. */
  lemma {:induction false} DedupKeepsFirstOccurrenceOrder(images: seq<Value>)
    ensures forall u :: u in Dedup(images) ==> u in images
    ensures forall i, j :: 0 <= i < j < |Dedup(images)| ==>
      FirstIndex(images, Dedup(images)[i]) < FirstIndex(images, Dedup(images)[j])
  {
    DedupElements(images);
    if images != [] {
      var init := images[..|images| - 1];
      var last := images[|images| - 1];
      assert images == init + [last];
      DedupKeepsFirstOccurrenceOrder(init);
      DedupElements(init);
      var d := Dedup(init);
      forall u | u in d
        ensures FirstIndex(images, u) == FirstIndex(init, u)
      {
        FirstIndexOfPrefix(init, [last], u);
      }
      if last !in init {
        assert FirstIndex(images, last) == |init| by {
          assert last !in images[..|init|];
        }
      }
    }
  }

  /** A list without duplicates is its own deduplication. */
  lemma {:induction false} DedupOfDistinct(images: seq<Value>)
    requires NoDups(images)
    ensures Dedup(images) == images
  {
    if images != [] {
      var init := images[..|images| - 1];
      assert NoDups(init);
      DedupOfDistinct(init);
      assert images[|images| - 1] !in init;
      assert images == init + [images[|images| - 1]];
    }
  }

  /** `list.filter(url => url !== imageUrl)` */
  function Without(list: seq<Value>, imageUrl: Value): (r: seq<Value>)
  {
    Filter(list, u => u != imageUrl)
  }

  /** Every occurrence of the URL is gone, every other URL keeps its
      multiplicity, and removal commutes with concatenation (order kept). */
  lemma WithoutRemovesOnlyTheUrl(list: seq<Value>, imageUrl: Value, rest: seq<Value>)
    ensures imageUrl !in Without(list, imageUrl)
    ensures forall u :: u in list && u != imageUrl ==> multiset(Without(list, imageUrl))[u] == multiset(list)[u]
    ensures Without(list + rest, imageUrl) == Without(list, imageUrl) + Without(rest, imageUrl)
  {
    FilterCounts(list, u => u != imageUrl);
    FilterAppend(list, rest, u => u != imageUrl);
  }

  /** `arr.splice(index, 1)` for a non-negative index. */
  function RemovedAt(list: seq<Value>, index: nat): (r: seq<Value>)
    ensures index < |list| ==> |r| == |list| - 1
    ensures index < |list| ==> forall i :: 0 <= i < index ==> r[i] == list[i]
    ensures index < |list| ==> forall i :: index <= i < |r| ==> r[i] == list[i + 1]
    ensures index >= |list| ==> r == list
  {
    if index < |list| then list[..index] + list[index + 1..] else list
  }

  /** `Array.isArray(images) ? images : []` */
  function ArrayOrEmpty(images: Value): (r: seq<Value>)
    ensures images.Arr? ==> r == images.items
    ensures !images.Arr? ==> r == []
  {
    if images.Arr? then images.items else []
  }

  /** What the upload server answered: `response.data`. */
  datatype UploadResponse = UploadResponse(success: Value, fileUrl: Value)

  /** `response.data.success && response.data.fileUrl` */
  predicate Delivered(response: UploadResponse)
  {
    Truthy(response.success) && Truthy(response.fileUrl)
  }

  class PictureStore {
    var postImages: map<string, Value>
    var uploadedImages: seq<Value>
    var uploadProgress: map<string, Value>
    var selectedImage: Value

    constructor ()
      ensures postImages == map[] && uploadedImages == [] && uploadProgress == map[] && selectedImage == Null
    {
      postImages := map[];
      uploadedImages := [];
      uploadProgress := map[];
      selectedImage := Null;
    }

    method SetPostImages(postId: string, images: Value)
      modifies this
      ensures postImages == old(postImages)[postId := images]
      ensures uploadedImages == old(uploadedImages) && uploadProgress == old(uploadProgress)
      ensures selectedImage == old(selectedImage)
    {
      postImages := postImages[postId := images];
    }

    method AddImage(imageUrl: Value)
      modifies this
      ensures uploadedImages == WithImage(old(uploadedImages), imageUrl)
      ensures postImages == old(postImages) && uploadProgress == old(uploadProgress)
      ensures selectedImage == old(selectedImage)
    {
      if imageUrl !in uploadedImages {
        uploadedImages := uploadedImages + [imageUrl];
      }
    }

    method SetUploadedImages(images: Value)
      modifies this
      ensures uploadedImages == ArrayOrEmpty(images)
      ensures postImages == old(postImages) && uploadProgress == old(uploadProgress)
      ensures selectedImage == old(selectedImage)
    {
      uploadedImages := ArrayOrEmpty(images);
    }

    method SetUploadProgress(fileName: string, progress: Value)
      modifies this
      ensures uploadProgress == old(uploadProgress)[fileName := progress]
      ensures postImages == old(postImages) && uploadedImages == old(uploadedImages)
      ensures selectedImage == old(selectedImage)
    {
      uploadProgress := uploadProgress[fileName := progress];
    }

    method RemoveImage(index: nat)
      modifies this
      ensures uploadedImages == RemovedAt(old(uploadedImages), index)
      ensures postImages == old(postImages) && uploadProgress == old(uploadProgress)
      ensures selectedImage == old(selectedImage)
    {
      if index < |uploadedImages| {
        uploadedImages := uploadedImages[..index] + uploadedImages[index + 1..];
      }
    }

    method ClearUploadedImages()
      modifies this
      ensures uploadedImages == [] && uploadProgress == map[]
      ensures postImages == old(postImages) && selectedImage == old(selectedImage)
    {
      uploadedImages := [];
      uploadProgress := map[];
    }

    method SetSelectedImage(image: Value)
      modifies this
      ensures selectedImage == image
      ensures postImages == old(postImages) && uploadedImages == old(uploadedImages)
      ensures uploadProgress == old(uploadProgress)
    {
      selectedImage := image;
    }

    /** `uploadImage` after the upload request: the URL is added to the user's
        remote image list and to the store only when the remote list lacks it.
        `remote` is `users/{id}/images` as read (or the failure of the read),
        `write` how the `set` of the extended list ends, and `written` the list
        that `set` was given. A stored string answers `includes` as a
        substring test and has no `push`; other truthy non-arrays have neither. */
    method UploadImage(response: UploadResponse, remote: Result<Value>, write: Outcome)
      returns (res: Result<Value>, written: Option<seq<Value>>)
      modifies this
      ensures !Delivered(response) ==>
        res == Throws(Error("Не удалось получить URL изображения")) && written.None? && uploadedImages == old(uploadedImages)
      ensures Delivered(response) && remote.Throws? ==>
        res == Throws(remote.err) && written.None? && uploadedImages == old(uploadedImages)
      ensures Delivered(response) && remote.Ok? && Truthy(remote.value) && !remote.value.Arr? ==>
        written.None? && uploadedImages == old(uploadedImages)
      ensures Delivered(response) && remote.Ok? && Truthy(remote.value) && remote.value.Str? ==>
        (res == Ok(response.fileUrl) <==> Includes(remote.value.s, PropertyKey(response.fileUrl)))
      ensures Delivered(response) && remote.Ok? && Truthy(remote.value) && remote.value.Str? ==>
        (!Includes(remote.value.s, PropertyKey(response.fileUrl)) ==> res.Throws? && res.err.TypeError?)
      ensures Delivered(response) && remote.Ok? && Truthy(remote.value) && !remote.value.Arr? && !remote.value.Str? ==>
        res.Throws? && res.err.TypeError?
      ensures Delivered(response) && remote.Ok? && (remote.value.Arr? || !Truthy(remote.value)) ==>
        var current := ArrayOrEmpty(remote.value);
        && (response.fileUrl in current ==>
              res == Ok(response.fileUrl) && written.None? && uploadedImages == old(uploadedImages))
        && (response.fileUrl !in current ==> written == Some(current + [response.fileUrl]))
        && (response.fileUrl !in current && write.Done? ==>
              res == Ok(response.fileUrl) && uploadedImages == WithImage(old(uploadedImages), response.fileUrl))
        && (response.fileUrl !in current && write.Fails? ==>
              res == Throws(write.err) && uploadedImages == old(uploadedImages))
      ensures postImages == old(postImages) && uploadProgress == old(uploadProgress)
      ensures selectedImage == old(selectedImage)
    {
      written := None;
      if !Delivered(response) {
        res := Throws(Error("Не удалось получить URL изображения"));
        return;
      }
      var imageUrl := response.fileUrl;
      if remote.Throws? {
        res := Throws(remote.err);
        return;
      }
      var stored := Or(remote.value, Arr([]));
      if stored.Str? {
        if Includes(stored.s, PropertyKey(imageUrl)) {
          res := Ok(imageUrl);
        } else {
          res := Throws(TypeError("currentImages.push is not a function"));
        }
        return;
      }
      if !stored.Arr? {
        res := Throws(TypeError("currentImages.includes is not a function"));
        return;
      }
      var current := stored.items;
      if imageUrl !in current {
        written := Some(current + [imageUrl]);
        if write.Fails? {
          res := Throws(write.err);
          return;
        }
        AddImage(imageUrl);
      }
      res := Ok(imageUrl);
    }

    /** `loadImagesFromFirebase`: `remote` is the read of the user's images.
        A failed read throws inside the `try`; otherwise `snapshot.val() || []`
        is logged with `images.map`, which throws for anything but an array.
        Either error is swallowed. */
    method LoadImagesFromFirebase(remote: Result<Value>)
      modifies this
      ensures remote.Throws? ==> uploadedImages == old(uploadedImages)
      ensures remote.Ok? && remote.value.Arr? ==> uploadedImages == remote.value.items
      ensures remote.Ok? && !Truthy(remote.value) ==> uploadedImages == []
      ensures remote.Ok? && Truthy(remote.value) && !remote.value.Arr? ==> uploadedImages == old(uploadedImages)
      ensures postImages == old(postImages) && uploadProgress == old(uploadProgress)
      ensures selectedImage == old(selectedImage)
    {
      if remote.Throws? {
        return;
      }
      var images := Or(remote.value, Arr([]));
      if images.Arr? {
        SetUploadedImages(images);
      }
    }

    /** `savePostImages`: the uploaded list is cleared and refilled from
        `images` before the remote write; the post's list is set only once the
        write succeeded. */
    method SavePostImages(postId: string, images: seq<Value>, writeOk: bool) returns (res: Result<seq<Value>>)
      modifies this
      ensures uploadedImages == Dedup(images) && uploadProgress == map[]
      ensures writeOk ==> res == Ok(images) && postImages == old(postImages)[postId := Arr(images)]
      ensures !writeOk ==> res == Throws(Error("Не удалось сохранить изображения поста"))
      ensures !writeOk ==> postImages == old(postImages)
      ensures selectedImage == old(selectedImage)
    {
      ClearUploadedImages();
      for i := 0 to |images|
        invariant uploadedImages == Dedup(images[..i]) && uploadProgress == map[]
        invariant postImages == old(postImages) && selectedImage == old(selectedImage)
      {
        AddImage(images[i]);
        assert images[..i + 1][..i] == images[..i];
      }
      assert images[..|images|] == images;
      if !writeOk {
        res := Throws(Error("Не удалось сохранить изображения поста"));
        return;
      }
      SetPostImages(postId, Arr(images));
      res := Ok(images);
    }

    /** `removePostImage`: with a post id the URL is filtered out of the stored
        remote list (when there is one) and the post's list is replaced;
        without one it is filtered out of the uploaded list. `remote` is
        `posts/{id}/images` as read, `None` when it does not exist, and
        `ioOk` says whether that read and the `set` after it succeed. A
        stored value that is not an array has no `filter`; every failure is
        reported with the same message. */
    method RemovePostImage(postId: Value, imageUrl: Value, remote: Option<Value>, ioOk: bool)
      returns (res: Result<bool>, written: Option<seq<Value>>)
      modifies this
      ensures res.Ok? ==> res.value
      ensures res.Throws? ==> res.err == Error("Не удалось удалить изображение")
      ensures res.Throws? <==> Truthy(postId) && (!ioOk || (remote.Some? && !remote.value.Arr?))
      ensures Truthy(postId) && res.Ok? && remote.Some? ==>
        written == Some(Without(remote.value.items, imageUrl))
        && postImages == old(postImages)[PropertyKey(postId) := Arr(Without(remote.value.items, imageUrl))]
        && uploadedImages == old(uploadedImages)
      ensures Truthy(postId) && (res.Throws? || remote.None?) ==>
        written.None? && postImages == old(postImages) && uploadedImages == old(uploadedImages)
      ensures !Truthy(postId) ==>
        written.None? && postImages == old(postImages)
        && uploadedImages == Without(old(uploadedImages), imageUrl)
      ensures uploadProgress == old(uploadProgress) && selectedImage == old(selectedImage)
    {
      written := None;
      if Truthy(postId) {
        if !ioOk || (remote.Some? && !remote.value.Arr?) {
          return Throws(Error("Не удалось удалить изображение")), None;
        }
        if remote.Some? {
          var images := Without(remote.value.items, imageUrl);
          written := Some(images);
          SetPostImages(PropertyKey(postId), Arr(images));
        }
      } else {
        SetUploadedImages(Arr(Without(uploadedImages, imageUrl)));
      }
      res := Ok(true);
    }

    /** `fetchPostImages`: `stored` is `posts/{id}/images` as read, `None`
        when it does not exist, and `readOk` says whether the read succeeds;
        an existing list is stored for the post and returned. */
    method FetchPostImages(postId: string, stored: Option<Value>, readOk: bool) returns (res: Result<Value>)
      modifies this
      ensures !readOk ==> res == Throws(Error("Не удалось загрузить изображения поста")) && postImages == old(postImages)
      ensures readOk && stored.Some? ==> res == Ok(stored.value) && postImages == old(postImages)[postId := stored.value]
      ensures readOk && stored.None? ==> res == Ok(Arr([])) && postImages == old(postImages)
      ensures uploadedImages == old(uploadedImages) && uploadProgress == old(uploadProgress)
      ensures selectedImage == old(selectedImage)
    {
      if !readOk {
        return Throws(Error("Не удалось загрузить изображения поста"));
      }
      if stored.Some? {
        SetPostImages(postId, stored.value);
        return Ok(stored.value);
      }
      res := Ok(Arr([]));
    }

    /** `removeImage`: the splice cannot throw for a non-negative index, so
        the action always reports success. */
    method RemoveImageAction(index: nat) returns (success: bool, message: string)
      modifies this
      ensures success && message == "Изображение успешно удалено"
      ensures uploadedImages == RemovedAt(old(uploadedImages), index)
      ensures postImages == old(postImages) && uploadProgress == old(uploadProgress)
      ensures selectedImage == old(selectedImage)
    {
      RemoveImage(index);
      success, message := true, "Изображение успешно удалено";
    }

    /** `clearImages`: the uploaded list is emptied; the progress map stays. */
    method ClearImages()
      modifies this
      ensures uploadedImages == []
      ensures postImages == old(postImages) && uploadProgress == old(uploadProgress)
      ensures selectedImage == old(selectedImage)
    {
      SetUploadedImages(Arr([]));
    }

    function GetPostImages(postId: string): (r: Value)
      reads this
      ensures !Truthy(Get(postImages, postId)) ==> r == Arr([])
      ensures Truthy(Get(postImages, postId)) ==> r == postImages[postId]
      ensures Truthy(r)
    {
      Or(Get(postImages, postId), Arr([]))
    }

    function GetUploadProgress(fileName: string): (r: Value)
      reads this
      ensures !Truthy(Get(uploadProgress, fileName)) ==> r == Num(0)
      ensures Truthy(Get(uploadProgress, fileName)) ==> r == uploadProgress[fileName]
    {
      Or(Get(uploadProgress, fileName), Num(0))
    }
  }
}

=== FILE: posts.dfy ===
/**
 * The forum store: posts keyed by id, comment lists keyed by post id, the
 * post being viewed or edited, a loading flag and the last error. Remote
 * reads are inputs of the actions (a snapshot that does not exist is
 * `None`), remote writes are outputs, and the signed-in user
 * (`rootState.auth.user`) is an input.
 */
module Posts {
  import opened Js
  import Comments

  /* ---------- comment lists ---------- */

  /** `comment.id === commentId` */
  predicate HasId(comment: Record, commentId: string)
  {
    Get(comment, "id") == Str(commentId)
  }

  /** `state.comments[postId] || []` */
  function CommentsOf(comments: map<string, seq<Record>>, postId: string): (r: seq<Record>)
    ensures postId in comments ==> r == comments[postId]
    ensures postId !in comments ==> r == []
  {
    if postId in comments then comments[postId] else []
  }

  /** The list `UPDATE_COMMENT` stores: same length and order, and only the
      comments with the id get the updates merged over them. */
  function MergeById(list: seq<Record>, commentId: string, updates: Record): (r: seq<Record>)
    ensures |r| == |list|
    ensures forall i :: 0 <= i < |list| && HasId(list[i], commentId) ==> r[i] == Spread(list[i], updates)
    ensures forall i :: 0 <= i < |list| && !HasId(list[i], commentId) ==> r[i] == list[i]
  {
    MapSeq(list, (c: Record) => if HasId(c, commentId) then Spread(c, updates) else c)
  }

  /** Merging the same updates a second time changes nothing, as long as the
      updates do not rename the comment. */
  lemma MergeByIdIdempotent(list: seq<Record>, commentId: string, updates: Record)
    requires "id" !in updates
    ensures MergeById(MergeById(list, commentId, updates), commentId, updates) == MergeById(list, commentId, updates)
  {
    var once := MergeById(list, commentId, updates);
    var twice := MergeById(once, commentId, updates);
    forall i | 0 <= i < |list|
      ensures twice[i] == once[i]
    {
      if HasId(list[i], commentId) {
        assert Get(once[i], "id") == Get(list[i], "id");
        assert Spread(once[i], updates) == once[i];
      }
    }
  }

  /** The list `DELETE_COMMENT` stores. */
  function WithoutId(list: seq<Record>, commentId: string): (r: seq<Record>)
    ensures |r| <= |list|
  {
    Filter(list, (c: Record) => !HasId(c, commentId))
  }

  /** No comment with the id survives, every other comment keeps its
      multiplicity, and the survivors keep their order (filtering distributes
      over concatenation). */
  lemma WithoutIdRemovesExactly(list: seq<Record>, rest: seq<Record>, commentId: string)
    ensures forall c :: c in WithoutId(list, commentId) ==> c in list && !HasId(c, commentId)
    ensures forall c :: c in list && !HasId(c, commentId) ==> multiset(WithoutId(list, commentId))[c] == multiset(list)[c]
    ensures WithoutId(list + rest, commentId) == WithoutId(list, commentId) + WithoutId(rest, commentId)
  {
    FilterCounts(list, (c: Record) => !HasId(c, commentId));
    FilterAppend(list, rest, (c: Record) => !HasId(c, commentId));
  }

  /** The shadowed `ADD_COMMENT`: the comment goes at the end of the post's
      list. A later definition under the same name replaces it, so no commit
      reaches this one. */
  function AppendComment(comments: map<string, seq<Record>>, postId: string, comment: Record): (r: map<string, seq<Record>>)
    ensures r.Keys == comments.Keys + {postId}
    ensures |r[postId]| == |CommentsOf(comments, postId)| + 1
    ensures r[postId][..|CommentsOf(comments, postId)|] == CommentsOf(comments, postId)
    ensures r[postId][|CommentsOf(comments, postId)|] == comment
    ensures forall p :: p in comments && p != postId ==> r[p] == comments[p]
  {
    comments[postId := CommentsOf(comments, postId) + [comment]]
  }

  /** The elements `[...v]` produces: an array's items or a string's
      characters; any other value is not iterable. */
  function IterableItems(v: Value): (r: Option<seq<Value>>)
    ensures v.Arr? ==> r == Some(v.items)
    ensures v.Str? ==> r == Some(Chars(v.s))
    ensures !v.Arr? && !v.Str? ==> r.None?
  {
    match v
    case Arr(items) => Some(items)
    case Str(s) => Some(Chars(s))
    case _ => None
  }

  /** `{ ...comment, replies: [...(comment.replies || []), reply] }`. */
  function WithReply(comment: Record, reply: Value): (r: Result<Record>)
    ensures r.Ok? <==> IterableItems(Or(Get(comment, "replies"), Arr([]))).Some?
    ensures r.Ok? ==> r.value.Keys == comment.Keys + {"replies"}
    ensures r.Ok? ==> forall f :: f in comment && f != "replies" ==> r.value[f] == comment[f]
    ensures r.Ok? ==> r.value["replies"] == Arr(IterableItems(Or(Get(comment, "replies"), Arr([]))).value + [reply])
    ensures !Truthy(Get(comment, "replies")) ==> r.Ok? && r.value["replies"] == Arr([reply])
    ensures Get(comment, "replies").Arr? ==> r.Ok? && r.value["replies"] == Arr(Get(comment, "replies").items + [reply])
    ensures r.Throws? ==> r.err.TypeError?
  {
    match IterableItems(Or(Get(comment, "replies"), Arr([])))
    case Some(items) => Ok(Spread(comment, map["replies" := Arr(items + [reply])]))
    case None => Throws(TypeError("comment.replies is not iterable"))
  }

  /** The list `ADD_REPLY` stores, or the TypeError its `map` callback throws
      on a matching comment whose `replies` is not iterable. */
  function AppendReply(list: seq<Record>, commentId: string, reply: Value): (r: Result<seq<Record>>)
    ensures r.Ok? <==> forall i :: 0 <= i < |list| && HasId(list[i], commentId) ==> WithReply(list[i], reply).Ok?
    ensures r.Ok? ==> |r.value| == |list|
    ensures r.Ok? ==> forall i :: 0 <= i < |list| && HasId(list[i], commentId) ==> r.value[i] == WithReply(list[i], reply).value
    ensures r.Ok? ==> forall i :: 0 <= i < |list| && !HasId(list[i], commentId) ==> r.value[i] == list[i]
    ensures r.Throws? ==> r.err.TypeError?
  {
    if exists i :: 0 <= i < |list| && HasId(list[i], commentId) && WithReply(list[i], reply).Throws? then
      Throws(TypeError("comment.replies is not iterable"))
    else
      Ok(MapSeq(list, (c: Record) => if HasId(c, commentId) then Replied(c, reply) else c))
  }

  /** The comment with the reply appended, or the comment itself when its
      `replies` is not iterable (a case `AppendReply` never maps). */
  function Replied(comment: Record, reply: Value): Record
  {
    match WithReply(comment, reply)
    case Ok(c) => c
    case Throws(_) => comment
  }

  /* ---------- the like toggle ---------- */

  /** The toggled likes: the user id pushed when absent, its first occurrence
      spliced out when present. */
  function Toggled(likes: seq<Value>, uid: Value): seq<Value>
  {
    if uid in likes then
      var i := FirstIndex(likes, uid);
      likes[..i] + likes[i + 1..]
    else likes + [uid]
  }

  /** `likes.indexOf(uid)`: -1 when absent, otherwise the first position. */
  method IndexOf(likes: seq<Value>, uid: Value) returns (i: int)
    ensures i == -1 <==> uid !in likes
    ensures i != -1 ==> 0 <= i < |likes| && i == FirstIndex(likes, uid)
  {
    i := 0;
    while i < |likes|
      invariant 0 <= i <= |likes|
      invariant uid !in likes[..i]
    {
      if likes[i] == uid {
        FirstIndexAt(likes, uid, i);
        return;
      }
      i := i + 1;
    }
    assert likes[..i] == likes;
    i := -1;
  }

  lemma {:induction false} FirstIndexAt(s: seq<Value>, x: Value, i: nat)
    requires i < |s| && s[i] == x && x !in s[..i]
    ensures x in s && FirstIndex(s, x) == i
  {
    if i > 0 {
      assert s[0] in s[..i];
      assert s[1..][..i - 1] == s[1..i];
      assert forall y :: y in s[1..i] ==> y in s[..i];
      FirstIndexAt(s[1..], x, i - 1);
    }
  }

  /** The step of `toggleLike` that pushes or splices the likes array. */
  method ToggleLikes(likes: seq<Value>, uid: Value) returns (r: seq<Value>)
    ensures r == Toggled(likes, uid)
  {
    var i := IndexOf(likes, uid);
    if i == -1 {
      r := likes + [uid];
    } else {
      r := likes[..i] + likes[i + 1..];
    }
  }

  /** One toggle adds or removes exactly one copy of the user id; every other
      id keeps its multiplicity. */
  lemma ToggledCounts(likes: seq<Value>, uid: Value)
    ensures uid !in likes ==> multiset(Toggled(likes, uid)) == multiset(likes) + multiset{uid}
    ensures uid in likes ==> multiset(Toggled(likes, uid)) == multiset(likes) - multiset{uid}
  {
    if uid in likes {
      var i := FirstIndex(likes, uid);
      assert likes == likes[..i] + [uid] + likes[i + 1..];
    }
  }

  /** Without duplicates the membership of the user flips, no other id is
      gained or lost, and there are still no duplicates. */
  lemma ToggledFlips(likes: seq<Value>, uid: Value)
    requires NoDups(likes)
    ensures NoDups(Toggled(likes, uid))
    ensures uid in Toggled(likes, uid) <==> uid !in likes
    ensures forall v :: v != uid ==> (v in Toggled(likes, uid) <==> v in likes)
  {
    ToggledCounts(likes, uid);
    var t := Toggled(likes, uid);
    if uid in likes {
      var i := FirstIndex(likes, uid);
      assert multiset(likes)[uid] == 1 by {
        NoDupsCountsOne(likes, uid);
      }
      forall a, b | 0 <= a < b < |t|
        ensures t[a] != t[b]
      {
        var a' := if a < i then a else a + 1;
        var b' := if b < i then b else b + 1;
        assert t[a] == likes[a'] && t[b] == likes[b'];
      }
    } else {
      assert forall a :: 0 <= a < |likes| ==> t[a] == likes[a];
    }
    forall v | v != uid
      ensures v in t <==> v in likes
    {
      assert multiset(t)[v] == multiset(likes)[v];
    }
  }

  lemma {:induction false} NoDupsCountsOne(s: seq<Value>, x: Value)
    requires NoDups(s) && x in s
    ensures multiset(s)[x] == 1
  {
    if s[0] == x {
      assert x !in s[1..];
      assert s == [s[0]] + s[1..];
    } else {
      assert NoDups(s[1..]);
      NoDupsCountsOne(s[1..], x);
      assert s == [s[0]] + s[1..];
    }
  }

  /** Toggling twice from "not liked" gives back exactly the original array;
      from "liked" it gives back the same ids (the id moves to the end). */
  lemma ToggleTwice(likes: seq<Value>, uid: Value)
    ensures uid !in likes ==> Toggled(Toggled(likes, uid), uid) == likes
    ensures NoDups(likes) ==> multiset(Toggled(Toggled(likes, uid), uid)) == multiset(likes)
  {
    ToggledCounts(likes, uid);
    var once := Toggled(likes, uid);
    ToggledCounts(once, uid);
    if uid !in likes {
      FirstIndexAt(once, uid, |likes|);
      assert once[..|likes|] == likes;
    } else if NoDups(likes) {
      NoDupsCountsOne(likes, uid);
      assert multiset(once)[uid] == 0;
    }
  }

  /* ---------- counters ---------- */

  /** A counter as stored: a number, or a falsy value read as 0 by `|| 0`. */
  predicate IsCount(v: Value)
  {
    v.Num? || !Truthy(v)
  }

  /** `v || 0` for a counter. */
  function CountOf(v: Value): (n: int)
    requires IsCount(v)
    ensures v.Num? ==> n == v.n
    ensures !v.Num? ==> n == 0
  {
    if v.Num? then v.n else 0
  }

  /** The likes count `toggleCommentLike` writes: one more when the comment
      was not liked, clamped one less when it was. */
  function LikesCountAfterToggle(wasLiked: bool, current: Value): (n: int)
    requires IsCount(current)
    ensures !wasLiked ==> n == CountOf(current) + 1
    ensures wasLiked ==> n >= 0 && (CountOf(current) > 0 ==> n == CountOf(current) - 1)
    ensures wasLiked && CountOf(current) <= 0 ==> n == 0
  {
    if wasLiked then (if CountOf(current) - 1 > 0 then CountOf(current) - 1 else 0)
    else CountOf(current) + 1
  }

  /** The updates `toggleCommentLike` merges into the stored comment. */
  function CommentLikeUpdates(wasLiked: bool, current: Value): (r: Record)
    requires IsCount(current)
    ensures r.Keys == {"isLiked", "likesCount"}
    ensures r["isLiked"] == Bool(!wasLiked)
    ensures r["likesCount"] == Num(LikesCountAfterToggle(wasLiked, current))
  {
    map["isLiked" := Bool(!wasLiked), "likesCount" := Num(LikesCountAfterToggle(wasLiked, current))]
  }

  /** `commentsCount` after a comment is created. */
  function CommentsCountAfterCreate(post: Value): (n: int)
    requires IsCount(Member(post, "commentsCount"))
    ensures n == CountOf(Member(post, "commentsCount")) + 1
  {
    CountOf(Member(post, "commentsCount")) + 1
  }

  /** `commentsCount` after a comment is deleted: never negative. */
  function CommentsCountAfterDelete(post: Value): (n: int)
    requires IsCount(Member(post, "commentsCount"))
    ensures n >= 0
    ensures CountOf(Member(post, "commentsCount")) >= 1 ==> n == CountOf(Member(post, "commentsCount")) - 1
    ensures CountOf(Member(post, "commentsCount")) < 1 ==> n == 0
  {
    var c := CountOf(Member(post, "commentsCount"));
    if c - 1 > 0 then c - 1 else 0
  }

  /** Starting from a non-negative count, every counter write is
      non-negative, and an unlike right after a like (or a delete right after
      a create) writes back the count it started from. */
  lemma CountersRoundTrip(c: int, post: Value)
    requires c >= 0
    requires IsCount(Member(post, "commentsCount")) && CountOf(Member(post, "commentsCount")) >= 0
    ensures LikesCountAfterToggle(false, Num(c)) >= 0 && LikesCountAfterToggle(true, Num(c)) >= 0
    ensures LikesCountAfterToggle(true, Num(LikesCountAfterToggle(false, Num(c)))) == c
    ensures CommentsCountAfterCreate(post) >= 1
    ensures CommentsCountAfterDelete(Obj(map["commentsCount" := Num(CommentsCountAfterCreate(post))]))
            == CountOf(Member(post, "commentsCount"))
  {
  }

  /* ---------- deletion permission ---------- */

  /** `deleteComment` goes on only for the comment's author or a user whose
      `isAdmin` is truthy. */
  predicate MayDeleteComment(comment: Value, user: Record)
    ensures Member(comment, "userId") == Get(user, "uid") ==> MayDeleteComment(comment, user)
    ensures Truthy(Get(user, "isAdmin")) ==> MayDeleteComment(comment, user)
    ensures Member(comment, "userId") != Get(user, "uid") && !Truthy(Get(user, "isAdmin")) ==>
      !MayDeleteComment(comment, user)
  {
    Member(comment, "userId") == Get(user, "uid") || Truthy(Get(user, "isAdmin"))
  }

  /* ---------- attachment URLs ---------- */

  /** `s.replace(pat, rep)` with a string pattern: only the first occurrence
      is replaced. */
  function ReplaceFirst(s: string, pat: string, rep: string): string
    requires |pat| > 0
    decreases |s|
  {
    if |s| < |pat| then s
    else if s[..|pat|] == pat then rep + s[|pat|..]
    else [s[0]] + ReplaceFirst(s[1..], pat, rep)
  }

  /** An occurrence in the tail is an occurrence one position later. */
  lemma OccursAtTail(s: string, pat: string, j: nat)
    requires |s| > 0
    ensures OccursAt(s[1..], pat, j) <==> OccursAt(s, pat, j + 1)
  {
    if j + |pat| <= |s| - 1 {
      assert s[1..][j..j + |pat|] == s[j + 1..j + 1 + |pat|];
    }
  }

  /** A string without the pattern is returned unchanged. */
  lemma {:induction false} ReplaceFirstAbsent(s: string, pat: string, rep: string)
    requires |pat| > 0
    requires forall i: nat :: !OccursAt(s, pat, i)
    ensures ReplaceFirst(s, pat, rep) == s
  {
    if |s| >= |pat| {
      assert !OccursAt(s, pat, 0);
      forall i: nat
        ensures !OccursAt(s[1..], pat, i)
      {
        OccursAtTail(s, pat, i);
      }
      ReplaceFirstAbsent(s[1..], pat, rep);
    }
  }

  /** Without a match at the front, the first character is kept and the
      search moves on. */
  lemma ReplaceFirstSkip(s: string, pat: string, rep: string)
    requires |pat| > 0 && |s| >= |pat| && !OccursAt(s, pat, 0)
    ensures ReplaceFirst(s, pat, rep) == [s[0]] + ReplaceFirst(s[1..], pat, rep)
  {
  }

  lemma ConsSplice(s: string, rep: string, i: nat, k: nat)
    requires 0 < i <= k <= |s|
    ensures [s[0]] + (s[1..][..i - 1] + rep + s[1..][k - 1..]) == s[..i] + rep + s[k..]
  {
    assert s[1..][..i - 1] == s[1..i] && s[1..][k - 1..] == s[k..];
    assert s[..i] == [s[0]] + s[1..i];
  }

  /** With the first occurrence at `i`, exactly that occurrence is replaced. */
  lemma {:induction false} ReplaceFirstAt(s: string, pat: string, rep: string, i: nat)
    requires |pat| > 0
    requires OccursAt(s, pat, i)
    requires forall j: nat :: j < i ==> !OccursAt(s, pat, j)
    ensures ReplaceFirst(s, pat, rep) == s[..i] + rep + s[i + |pat|..]
  {
    if i > 0 {
      assert !OccursAt(s, pat, 0);
      OccursAtTail(s, pat, i - 1);
      forall j: nat | j < i - 1
        ensures !OccursAt(s[1..], pat, j)
      {
        OccursAtTail(s, pat, j);
      }
      ReplaceFirstAt(s[1..], pat, rep, i - 1);
      ReplaceFirstSkip(s, pat, rep);
      ConsSplice(s, rep, i, i + |pat|);
    }
  }

  /** The URL rewrite `createPost` and `updatePost` apply. */
  function RewriteUrl(url: string): string
  {
    ReplaceFirst(url, "/uploads/", "/upload/")
  }

  /** `{ ...attachment, url: attachment.url.replace('/uploads/', '/upload/') }`;
      an attachment whose `url` is not a string makes `.replace` throw. */
  function RewriteAttachment(attachment: Value): (r: Result<Value>)
    ensures r.Ok? <==> Member(attachment, "url").Str?
    ensures r.Ok? ==> r.value.Obj? && "url" in r.value.fields
    ensures r.Ok? ==> r.value.fields["url"] == Str(RewriteUrl(Member(attachment, "url").s))
    ensures r.Ok? ==> r.value.fields.Keys == attachment.fields.Keys
    ensures r.Ok? ==> forall f :: f in attachment.fields && f != "url" ==> r.value.fields[f] == attachment.fields[f]
  {
    var url := Member(attachment, "url");
    if url.Str? then Ok(Obj(Spread(SpreadValue(attachment), map["url" := Str(RewriteUrl(url.s))])))
    else Throws(TypeError("attachment.url.replace is not a function"))
  }

  /** The rewritten attachment list, or the TypeError of the first
      attachment without a string `url`. */
  function RewriteAttachments(attachments: seq<Value>): (r: Result<seq<Value>>)
    ensures r.Ok? <==> forall i :: 0 <= i < |attachments| ==> Member(attachments[i], "url").Str?
    ensures r.Ok? ==> |r.value| == |attachments|
    ensures r.Ok? ==> forall i :: 0 <= i < |attachments| ==> r.value[i] == RewriteAttachment(attachments[i]).value
  {
    if attachments == [] then Ok([])
    else
      var head := RewriteAttachment(attachments[0]);
      var tail := RewriteAttachments(attachments[1..]);
      if head.Throws? then Throws(head.err)
      else if tail.Throws? then tail
      else Ok([head.value] + tail.value)
  }

  /** `if (data.attachments) data.attachments = data.attachments.map(...)`:
      a truthy non-array has no `map`. */
  function RewriteAttachmentsIn(data: Record): (r: Result<Record>)
    ensures !Truthy(Get(data, "attachments")) ==> r == Ok(data)
    ensures Truthy(Get(data, "attachments")) && !Get(data, "attachments").Arr? ==> r.Throws?
    ensures r.Ok? ==> r.value.Keys == data.Keys
    ensures r.Ok? ==> forall f :: f in data && f != "attachments" ==> r.value[f] == data[f]
    ensures Get(data, "attachments").Arr? ==>
      (r.Ok? <==> RewriteAttachments(data["attachments"].items).Ok?)
    ensures Get(data, "attachments").Arr? && r.Ok? ==>
      r.value["attachments"] == Arr(RewriteAttachments(data["attachments"].items).value)
  {
    var attachments := Get(data, "attachments");
    if !Truthy(attachments) then Ok(data)
    else if !attachments.Arr? then Throws(TypeError("postData.attachments.map is not a function"))
    else
      match RewriteAttachments(attachments.items)
      case Ok(list) => Ok(data["attachments" := Arr(list)])
      case Throws(e) => Throws(e)
  }

  /** An attachment URL changes only at its first `/uploads/`, and one
      without `/uploads/` is kept as it is. */
  lemma RewriteUrlFirstOnly(url: string, i: nat)
    ensures (forall j: nat :: !OccursAt(url, "/uploads/", j)) ==> RewriteUrl(url) == url
    ensures OccursAt(url, "/uploads/", i) && (forall j: nat :: j < i ==> !OccursAt(url, "/uploads/", j)) ==>
      RewriteUrl(url) == url[..i] + "/upload/" + url[i + 9..]
  {
    if forall j: nat :: !OccursAt(url, "/uploads/", j) {
      ReplaceFirstAbsent(url, "/uploads/", "/upload/");
    }
    if OccursAt(url, "/uploads/", i) && (forall j: nat :: j < i ==> !OccursAt(url, "/uploads/", j)) {
      ReplaceFirstAt(url, "/uploads/", "/upload/", i);
    }
  }

  /** The record `createPost` writes: the caller's data with rewritten
      attachments, then the fixed fields. `now` is the server-timestamp
      placeholder. */
  function NewPost(postData: Record, postId: string, now: Value): (r: Result<Record>)
    ensures r.Ok? <==> RewriteAttachmentsIn(postData).Ok?
    ensures r.Ok? ==> {"id", "likes", "views", "createdAt", "updatedAt"} <= r.value.Keys
    ensures r.Ok? ==> r.value["id"] == Str(postId) && r.value["likes"] == Arr([]) && r.value["views"] == Num(0)
    ensures r.Ok? ==> r.value["createdAt"] == now && r.value["updatedAt"] == now
    ensures r.Ok? ==> r.value.Keys == postData.Keys + {"id", "likes", "views", "createdAt", "updatedAt"}
    ensures r.Ok? ==> forall f :: f in postData && f !in {"id", "likes", "views", "createdAt", "updatedAt", "attachments"} ==>
      f in r.value && r.value[f] == postData[f]
    ensures r.Ok? && "attachments" in postData ==>
      r.value["attachments"] == RewriteAttachmentsIn(postData).value["attachments"]
  {
    match RewriteAttachmentsIn(postData)
    case Throws(e) => Throws(e)
    case Ok(data) =>
      Ok(Spread(data, map["id" := Str(postId), "likes" := Arr([]), "views" := Num(0),
                          "createdAt" := now, "updatedAt" := now]))
  }

  /* ---------- the category search of fetchPostById ---------- */

  /** `categories[c].posts && categories[c].posts[postId]` */
  predicate ListsPost(category: Value, postId: string)
  {
    Truthy(Member(category, "posts")) && Truthy(Member(Member(category, "posts"), postId))
  }

  /** The `for ... in` search over the categories, stopping at the first one
      that lists the post. Key order is not modelled: any listing category
      may be the one found. */
  method FindCategoryOf(categories: map<string, Value>, postId: string) returns (found: Option<string>)
    ensures found.Some? ==> found.value in categories && ListsPost(categories[found.value], postId)
    ensures found.None? <==> forall c :: c in categories ==> !ListsPost(categories[c], postId)
  {
    var todo := categories.Keys;
    while todo != {}
      invariant todo <= categories.Keys
      invariant forall c :: c in categories && c !in todo ==> !ListsPost(categories[c], postId)
      decreases todo
    {
      var c :| c in todo;
      if ListsPost(categories[c], postId) {
        return Some(c);
      }
      todo := todo - {c};
    }
    found := None;
  }

  /** `{ id: postId, categoryId, ...entry }`: the entry's own fields win. */
  function PostBase(postId: string, categoryId: string, entry: Value): (r: Record)
    ensures "id" in r && "categoryId" in r
    ensures "id" !in SpreadValue(entry) ==> r["id"] == Str(postId)
    ensures "categoryId" !in SpreadValue(entry) ==> r["categoryId"] == Str(categoryId)
    ensures forall f :: f in SpreadValue(entry) ==> f in r && r[f] == SpreadValue(entry)[f]
    ensures forall f :: f in r ==> f in SpreadValue(entry) || f == "id" || f == "categoryId"
  {
    Spread(map["id" := Str(postId), "categoryId" := Str(categoryId)], SpreadValue(entry))
  }

  /** `{ id: authorId, ...profile }` when the post has a truthy `authorId`
      whose profile exists. */
  function AuthorOf(post: Record, profiles: map<string, Value>): (r: Option<Value>)
    ensures r.Some? <==> Truthy(Get(post, "authorId")) && PropertyKey(Get(post, "authorId")) in profiles
    ensures r.Some? ==> r.value.Obj? && "id" in r.value.fields
    ensures r.Some? ==> var profile := SpreadValue(profiles[PropertyKey(Get(post, "authorId"))]);
      (forall f :: f in profile ==> f in r.value.fields && r.value.fields[f] == profile[f]) &&
      ("id" !in profile ==> r.value.fields["id"] == Get(post, "authorId"))
  {
    var authorId := Get(post, "authorId");
    if Truthy(authorId) && PropertyKey(authorId) in profiles then
      Some(Obj(Spread(map["id" := authorId], SpreadValue(profiles[PropertyKey(authorId)]))))
    else None
  }

  /** The post `fetchPostById` stores and returns: the base record, with the
      author attached when there is one. */
  function PostData(postId: string, categoryId: string, entry: Value, profiles: map<string, Value>): (r: Record)
    ensures AuthorOf(PostBase(postId, categoryId, entry), profiles).None? ==> r == PostBase(postId, categoryId, entry)
    ensures AuthorOf(PostBase(postId, categoryId, entry), profiles).Some? ==>
      r.Keys == PostBase(postId, categoryId, entry).Keys + {"author"} &&
      r["author"] == AuthorOf(PostBase(postId, categoryId, entry), profiles).value
    ensures forall f :: f in PostBase(postId, categoryId, entry) && f != "author" ==>
      f in r && r[f] == PostBase(postId, categoryId, entry)[f]
  {
    var base := PostBase(postId, categoryId, entry);
    match AuthorOf(base, profiles)
    case Some(author) => base["author" := author]
    case None => base
  }

  /* ---------- fetchPostsByCategory ---------- */

  /** `{ id: postId, ...snapshot.val() }` */
  function Keyed(postId: string, value: Value): (r: Record)
    ensures "id" in r
    ensures "id" !in SpreadValue(value) ==> r["id"] == Str(postId)
    ensures forall f :: f in SpreadValue(value) ==> f in r && r[f] == SpreadValue(value)[f]
  {
    Spread(map["id" := Str(postId)], SpreadValue(value))
  }

  /** The loop over the listed post ids: one record per id whose post exists. */
  method CollectPosts(postIds: seq<string>, remote: map<string, Value>) returns (fetched: map<string, Record>)
    ensures forall id :: id in fetched <==> id in postIds && id in remote
    ensures forall id :: id in fetched ==> fetched[id] == Keyed(id, remote[id])
  {
    fetched := map[];
    for i := 0 to |postIds|
      invariant forall id :: id in fetched <==> id in postIds[..i] && id in remote
      invariant forall id :: id in fetched ==> id in remote && fetched[id] == Keyed(id, remote[id])
    {
      var id := postIds[i];
      if id in remote {
        fetched := fetched[id := Keyed(id, remote[id])];
      }
      assert postIds[..i + 1] == postIds[..i] + [id];
    }
    assert postIds[..|postIds|] == postIds;
  }

  /** `createdAt` as an integer timestamp (0 when absent). */
  function CreatedAt(r: Record): int
  {
    var t := Get(r, "createdAt");
    if t.Num? then t.n else 0
  }

  predicate NewestFirst<T>(s: seq<T>, stamp: T -> int)
  {
    forall i, j :: 0 <= i < j < |s| ==> stamp(s[i]) >= stamp(s[j])
  }

  /** One insertion step: `x` goes after every element at least as new. */
  method InsertNewestFirst<T>(sorted: seq<T>, x: T, stamp: T -> int) returns (r: seq<T>)
    requires NewestFirst(sorted, stamp)
    ensures multiset(r) == multiset(sorted) + multiset{x}
    ensures NewestFirst(r, stamp)
  {
    var j := 0;
    while j < |sorted| && stamp(sorted[j]) >= stamp(x)
      invariant 0 <= j <= |sorted|
      invariant forall k :: 0 <= k < j ==> stamp(sorted[k]) >= stamp(x)
    {
      j := j + 1;
    }
    r := sorted[..j] + [x] + sorted[j..];
    InsertedNewestFirst(sorted, x, j, stamp);
    assert sorted == sorted[..j] + sorted[j..];
  }

  lemma InsertedNewestFirst<T>(sorted: seq<T>, x: T, j: nat, stamp: T -> int)
    requires NewestFirst(sorted, stamp) && j <= |sorted|
    requires forall k :: 0 <= k < j ==> stamp(sorted[k]) >= stamp(x)
    requires j < |sorted| ==> stamp(sorted[j]) < stamp(x)
    ensures NewestFirst(sorted[..j] + [x] + sorted[j..], stamp)
  {
    var r := sorted[..j] + [x] + sorted[j..];
    forall a, b | 0 <= a < b < |r|
      ensures stamp(r[a]) >= stamp(r[b])
    {
      if b < j {
        assert r[a] == sorted[a] && r[b] == sorted[b];
      } else if b == j {
        assert r[a] == sorted[a] && r[b] == x;
      } else if a < j {
        assert r[a] == sorted[a] && r[b] == sorted[b - 1];
      } else if a == j {
        assert r[a] == x && r[b] == sorted[b - 1];
        assert stamp(sorted[b - 1]) <= stamp(sorted[j]) || b - 1 == j;
      } else {
        assert r[a] == sorted[a - 1] && r[b] == sorted[b - 1];
      }
    }
  }

  /** `sort((a, b) => stamp(b) - stamp(a))` on integer stamps: a permutation,
      newest first. */
  method SortNewestFirst<T>(s: seq<T>, stamp: T -> int) returns (r: seq<T>)
    ensures multiset(r) == multiset(s)
    ensures NewestFirst(r, stamp)
  {
    r := [];
    for i := 0 to |s|
      invariant multiset(r) == multiset(s[..i])
      invariant NewestFirst(r, stamp)
    {
      r := InsertNewestFirst(r, s[i], stamp);
      assert s[..i + 1] == s[..i] + [s[i]];
    }
    assert s[..|s|] == s;
  }

  /** `Object.keys(posts).sort((a, b) => posts[b].createdAt - posts[a].createdAt)` */
  method SortKeysNewestFirst(posts: map<string, Record>) returns (sorted: seq<string>)
    ensures forall id :: id in sorted <==> id in posts
    ensures |sorted| == |posts.Keys|
    ensures forall i, j :: 0 <= i < j < |sorted| ==>
      sorted[i] in posts && sorted[j] in posts && CreatedAt(posts[sorted[i]]) >= CreatedAt(posts[sorted[j]])
  {
    var keys := SetToSeq(posts.Keys);
    var stamp := (id: string) => if id in posts then CreatedAt(posts[id]) else 0;
    sorted := SortNewestFirst(keys, stamp);
    assert forall id :: id in sorted <==> id in multiset(keys);
    assert |sorted| == |keys| by {
      assert |multiset(sorted)| == |multiset(keys)|;
    }
  }

  /** Every fetched post carries an integer `createdAt`. */
  predicate HasTimestamps(remote: map<string, Value>)
  {
    forall id :: id in remote ==> Get(SpreadValue(remote[id]), "createdAt").Num?
  }

  /* ---------- getPostsByCategory ---------- */

  /** The keys of the posts in a category. */
  function InCategory(posts: map<string, Record>, categoryId: Value): set<string>
  {
    set k | k in posts && Get(posts[k], "categoryId") == categoryId
  }

  /** The `filter` over the posts stored under `all`, in that order; `keys`
      names the key each kept post was read from and `positions` where that
      key stands in `all`. */
  method FilterCategory(posts: map<string, Record>, all: seq<string>, categoryId: Value)
    returns (r: seq<Record>, ghost keys: seq<string>, ghost positions: seq<nat>)
    requires NoDups(all) && forall k :: k in all ==> k in posts
    ensures |r| == |keys| && NoDups(keys)
    ensures forall k :: k in keys <==> k in all && Get(posts[k], "categoryId") == categoryId
    ensures forall j :: 0 <= j < |keys| ==> keys[j] in posts && r[j] == posts[keys[j]]
    ensures forall j :: 0 <= j < |r| ==> Get(r[j], "categoryId") == categoryId
    ensures |positions| == |keys|
    ensures forall j :: 0 <= j < |keys| ==> positions[j] < |all| && keys[j] == all[positions[j]]
    ensures forall a, b :: 0 <= a < b < |positions| ==> positions[a] < positions[b]
  {
    r, keys, positions := [], [], [];
    for i := 0 to |all|
      invariant |r| == |keys| == |positions| && NoDups(keys)
      invariant forall k :: k in keys <==> k in all[..i] && Get(posts[k], "categoryId") == categoryId
      invariant forall j :: 0 <= j < |keys| ==> keys[j] in posts && r[j] == posts[keys[j]]
      invariant forall j :: 0 <= j < |keys| ==> positions[j] < i && keys[j] == all[positions[j]]
      invariant forall a, b :: 0 <= a < b < |positions| ==> positions[a] < positions[b]
    {
      var k := all[i];
      assert all[..i + 1] == all[..i] + [k];
      if Get(posts[k], "categoryId") == categoryId {
        assert k !in all[..i];
        r, keys, positions := r + [posts[k]], keys + [k], positions + [i];
      }
    }
    assert all[..|all|] == all;
  }

  /** `Object.values(posts).filter(post => post.categoryId === categoryId)`:
      every post of the category, once per key, and nothing else. `keys`
      names the key each element was read from. */
  method PostsByCategory(posts: map<string, Record>, categoryId: Value) returns (r: seq<Record>, ghost keys: seq<string>)
    ensures |r| == |InCategory(posts, categoryId)|
    ensures NoDups(keys) && |keys| == |r|
    ensures forall k :: k in keys <==> k in InCategory(posts, categoryId)
    ensures forall i :: 0 <= i < |r| ==> keys[i] in posts && r[i] == posts[keys[i]]
  {
    var all := SetToSeq(posts.Keys);
    ghost var positions;
    r, keys, positions := FilterCategory(posts, all, categoryId);
    assert (set k | k in keys) == InCategory(posts, categoryId);
    DistinctCard(keys);
  }

  /** `after` is `before` with the post at one key whose `id` equals
      `updated`'s replaced by `updated`: what `UPDATE_POST` does when some
      stored post has that id. */
  ghost predicate ReplacedById(before: map<string, Record>, after: map<string, Record>, updated: Record)
  {
    exists k :: k in before && Get(before[k], "id") == Get(updated, "id") && after == before[k := updated]
  }

  class PostsStore {
    var posts: map<string, Record>
    var comments: map<string, seq<Record>>
    var currentPost: Value
    var editingPost: Value
    var loading: bool
    var error: Value

    constructor ()
      ensures posts == map[] && comments == map[]
      ensures currentPost == Null && editingPost == Null && !loading && error == Null
    {
      posts := map[];
      comments := map[];
      currentPost := Null;
      editingPost := Null;
      loading := false;
      error := Null;
    }

    /* ----- mutations ----- */

    /** `SET_POSTS`: a shallow merge in which the incoming posts win. */
    method SetPosts(batch: map<string, Record>)
      modifies this`posts
      ensures posts == old(posts) + batch
      ensures posts.Keys == old(posts).Keys + batch.Keys
      ensures forall k :: k in batch ==> posts[k] == batch[k]
      ensures forall k :: k in old(posts) && k !in batch ==> posts[k] == old(posts)[k]
    {
      posts := posts + batch;
    }

    /** `SET_POST`: the post is stored under its id. */
    method SetPost(post: Record)
      modifies this`posts
      ensures posts == old(posts)[PropertyKey(Get(post, "id")) := post]
    {
      posts := posts[PropertyKey(Get(post, "id")) := post];
    }

    method SetComments(postId: string, list: seq<Record>)
      modifies this`comments
      ensures comments == old(comments)[postId := list]
    {
      comments := comments[postId := list];
    }

    method UpdateComment(postId: string, commentId: string, updates: Record)
      modifies this`comments
      ensures comments == old(comments)[postId := MergeById(CommentsOf(old(comments), postId), commentId, updates)]
    {
      var list := CommentsOf(comments, postId);
      comments := comments[postId := MergeById(list, commentId, updates)];
    }

    method DeleteComment(postId: string, commentId: string)
      modifies this`comments
      ensures comments == old(comments)[postId := WithoutId(CommentsOf(old(comments), postId), commentId)]
    {
      var list := CommentsOf(comments, postId);
      comments := comments[postId := WithoutId(list, commentId)];
    }

    /** `ADD_REPLY`; when its callback throws, nothing is assigned. */
    method AddReply(postId: string, commentId: string, reply: Value) returns (res: Outcome)
      modifies this`comments
      ensures AppendReply(CommentsOf(old(comments), postId), commentId, reply).Ok? ==>
        res == Done && comments == old(comments)[postId := AppendReply(CommentsOf(old(comments), postId), commentId, reply).value]
      ensures AppendReply(CommentsOf(old(comments), postId), commentId, reply).Throws? ==>
        res == Fails(AppendReply(CommentsOf(old(comments), postId), commentId, reply).err) && comments == old(comments)
    {
      match AppendReply(CommentsOf(comments, postId), commentId, reply)
      case Ok(list) =>
        comments := comments[postId := list];
        res := Done;
      case Throws(e) =>
        res := Fails(e);
    }

    method SetCurrentPost(post: Value)
      modifies this`currentPost
      ensures currentPost == post
    {
      currentPost := post;
    }

    method SetEditingPost(post: Value)
      modifies this`editingPost
      ensures editingPost == post
    {
      editingPost := post;
    }

    method SetLoading(status: bool)
      modifies this`loading
      ensures loading == status
    {
      loading := status;
    }

    method SetError(e: Value)
      modifies this`error
      ensures error == e
    {
      error := e;
    }

    /** `UPDATE_POST`: the whole value at the key whose post has the same id
        is replaced; with no such key nothing changes. */
    method UpdatePost(updated: Record)
      modifies this`posts
      ensures (forall k :: k in old(posts) ==> Get(old(posts)[k], "id") != Get(updated, "id")) ==> posts == old(posts)
      ensures (exists k :: k in old(posts) && Get(old(posts)[k], "id") == Get(updated, "id")) ==>
        ReplacedById(old(posts), posts, updated)
    {
      var todo := posts.Keys;
      while todo != {}
        invariant todo <= posts.Keys && posts == old(posts)
        invariant forall k :: k in posts && k !in todo ==> Get(posts[k], "id") != Get(updated, "id")
        decreases todo
      {
        var k :| k in todo;
        if Get(posts[k], "id") == Get(updated, "id") {
          posts := posts[k := updated];
          return;
        }
        todo := todo - {k};
      }
    }

    /** `DELETE_POST` */
    method DeletePost(postId: string)
      modifies this`posts
      ensures posts == old(posts) - {postId}
    {
      posts := posts - {postId};
    }

    /** `ADD_COMMENT` as it stands after the shadowing: `state.posts` is a
        plain object, so `.find` is not a function. */
    method AddComment(postId: string, comment: Record) returns (res: Outcome)
      ensures res == Fails(TypeError("state.posts.find is not a function"))
    {
      res := Fails(TypeError("state.posts.find is not a function"));
    }

    /** `UPDATE_COMMENT_LIKES`: throws for the same reason. */
    method UpdateCommentLikes(postId: string, commentId: string, increment: int) returns (res: Outcome)
      ensures res == Fails(TypeError("state.posts.find is not a function"))
    {
      res := Fails(TypeError("state.posts.find is not a function"));
    }

    /** `ADD_REPLY_TO_COMMENT`: throws for the same reason. */
    method AddReplyToComment(postId: string, commentId: string, reply: Value) returns (res: Outcome)
      ensures res == Fails(TypeError("state.posts.find is not a function"))
    {
      res := Fails(TypeError("state.posts.find is not a function"));
    }

    /* ----- actions ----- */

    /** `fetchPostById`: `categories` is the categories tree (empty when it
        does not exist) and `profiles` the existing profiles by user id. The
        post is built from the category's entry `posts[postId]`. */
    method FetchPostById(postId: string, categories: map<string, Value>, profiles: map<string, Value>)
      returns (res: Result<Record>)
      modifies this`posts, this`currentPost, this`loading, this`error
      ensures !loading
      ensures res.Throws? <==> forall c :: c in categories ==> !ListsPost(categories[c], postId)
      ensures res.Ok? ==>
        exists c :: c in categories && ListsPost(categories[c], postId) && res.value == PostData(postId, c, Member(Member(categories[c], "posts"), postId), profiles)
      ensures res.Ok? ==> posts == old(posts)[PropertyKey(Get(res.value, "id")) := res.value]
      ensures res.Ok? ==> currentPost == Obj(res.value) && error == old(error)
      ensures res.Throws? ==> res == Throws(Error("Пост не найден")) && error == Str("Пост не найден")
      ensures res.Throws? ==> posts == old(posts) && currentPost == old(currentPost)
    {
      SetLoading(true);
      var found := FindCategoryOf(categories, postId);
      if found.None? {
        SetError(Str("Пост не найден"));
        SetLoading(false);
        return Throws(Error("Пост не найден"));
      }
      var data := PostData(postId, found.value, Member(Member(categories[found.value], "posts"), postId), profiles);
      SetPost(data);
      SetCurrentPost(Obj(data));
      SetLoading(false);
      res := Ok(data);
    }

    /** `createPost`: `postId` is the key `push` generated. On success the
        post record and the category key under which `true` is written are
        returned in `written`. */
    method CreatePost(postData: Record, postId: string, now: Value)
      returns (res: Result<string>, written: Option<(Record, string)>)
      modifies this`currentPost, this`loading, this`error
      ensures !loading
      ensures postId == "" ==> res == Throws(Error("Не удалось создать ID для поста")) && written.None?
      ensures postId != "" && NewPost(postData, postId, now).Throws? ==> res.Throws? && written.None?
      ensures res.Throws? ==> error == Str(MessageOf(res.err)) && currentPost == old(currentPost)
      ensures postId != "" && NewPost(postData, postId, now).Ok? ==>
        res == Ok(postId) && currentPost == Obj(NewPost(postData, postId, now).value) && error == old(error) &&
        written == Some((NewPost(postData, postId, now).value, PropertyKey(Get(postData, "categoryId"))))
    {
      SetLoading(true);
      if postId == "" {
        res, written := Throws(Error("Не удалось создать ID для поста")), None;
      } else {
        match NewPost(postData, postId, now) {
        case Throws(e) =>
          res, written := Throws(e), None;
        case Ok(full) =>
          SetCurrentPost(Obj(full));
          res, written := Ok(postId), Some((full, PropertyKey(Get(postData, "categoryId"))));
        }
      }
      if res.Throws? {
        SetError(Str(MessageOf(res.err)));
      }
      SetLoading(false);
    }

    /** `updatePost`: the stored post with the same id is replaced by
        `{ id: postId, ...updates }` alone, so fields the update does not
        mention are gone from the local copy. The action itself resolves to
        `true`; in its place `res` reports the updates sent remotely. */
    method UpdatePostAction(postId: string, updateData: Record, now: Value) returns (res: Result<Record>)
      modifies this`posts, this`loading, this`error
      ensures !loading
      ensures res.Ok? <==> RewriteAttachmentsIn(updateData).Ok?
      ensures res.Ok? ==> res.value == Spread(RewriteAttachmentsIn(updateData).value, map["updatedAt" := now])
      ensures res.Ok? ==> var stored := Spread(map["id" := Str(postId)], res.value);
        (forall k :: k in old(posts) ==> Get(old(posts)[k], "id") != Get(stored, "id")) ==> posts == old(posts)
      ensures res.Ok? ==> var stored := Spread(map["id" := Str(postId)], res.value);
        (exists k :: k in old(posts) && Get(old(posts)[k], "id") == Get(stored, "id")) ==>
        ReplacedById(old(posts), posts, stored)
      ensures res.Ok? ==> error == old(error)
      ensures res.Throws? ==> posts == old(posts) && error == Str(MessageOf(res.err))
    {
      SetLoading(true);
      match RewriteAttachmentsIn(updateData) {
      case Throws(e) =>
        SetError(Str(MessageOf(e)));
        res := Throws(e);
      case Ok(data) =>
        var updates := Spread(data, map["updatedAt" := now]);
        UpdatePost(Spread(map["id" := Str(postId)], updates));
        res := Ok(updates);
      }
      SetLoading(false);
    }

    /** `deletePost`: `stored` is the post as read, `None` when it does not
        exist. On success the category key whose link is removed is
        returned. */
    method DeletePostAction(postId: string, stored: Option<Value>) returns (res: Result<string>)
      modifies this`posts, this`loading, this`error
      ensures !loading
      ensures stored.None? ==> res == Throws(Error("Пост не найден")) && posts == old(posts) && error == Str("Пост не найден")
      ensures stored.Some? ==> res == Ok(PropertyKey(Member(stored.value, "categoryId")))
      ensures stored.Some? ==> posts == old(posts) - {postId} && postId !in posts && error == old(error)
    {
      SetLoading(true);
      if stored.None? {
        SetError(Str("Пост не найден"));
        res := Throws(Error("Пост не найден"));
      } else {
        DeletePost(postId);
        res := Ok(PropertyKey(Member(stored.value, "categoryId")));
      }
      SetLoading(false);
    }

    /** `toggleLike`: `stored` is the post as read (`None` when it does not
        exist). The written likes array and the updated post are returned.
        A truthy `likes` that is not an array fails at the first call it
        lacks: a string answers `indexOf` and then has no `splice` (the uid
        found) or `push` (not found); any other value has no `indexOf`. */
    method ToggleLike(user: Option<Record>, postId: string, stored: Option<Value>) returns (res: Result<Record>)
      modifies this`posts, this`error
      ensures user.None? ==> res == Throws(Error("Необходимо войти в систему")) && posts == old(posts) && error == old(error)
      ensures user.Some? && stored.None? ==>
        res == Throws(Error("Пост не найден")) && posts == old(posts) && error == Str("Пост не найден")
      ensures user.Some? && stored.Some? ==> var likes := Or(Get(Keyed(postId, stored.value), "likes"), Arr([]));
        (res.Ok? <==> likes.Arr?) &&
        (res.Ok? ==> res.value == Keyed(postId, stored.value)["likes" := Arr(Toggled(likes.items, Get(user.value, "uid")))])
      ensures res.Ok? ==> error == old(error)
      ensures res.Ok? ==> (forall k :: k in old(posts) ==> Get(old(posts)[k], "id") != Get(res.value, "id")) ==> posts == old(posts)
      ensures res.Ok? ==> (exists k :: k in old(posts) && Get(old(posts)[k], "id") == Get(res.value, "id")) ==>
        ReplacedById(old(posts), posts, res.value)
      ensures res.Throws? && user.Some? && stored.Some? ==> posts == old(posts) && error == Str(MessageOf(res.err))
      ensures user.Some? && stored.Some? ==> var likes := Or(Get(Keyed(postId, stored.value), "likes"), Arr([]));
        (likes.Str? ==> res == Throws(TypeError(
          if Includes(likes.s, PropertyKey(Get(user.value, "uid"))) then "likes.splice is not a function"
          else "likes.push is not a function")))
        && (!likes.Arr? && !likes.Str? ==> res == Throws(TypeError("likes.indexOf is not a function")))
    {
      if user.None? {
        return Throws(Error("Необходимо войти в систему"));
      }
      if stored.None? {
        SetError(Str("Пост не найден"));
        return Throws(Error("Пост не найден"));
      }
      var post := Keyed(postId, stored.value);
      var likes := Or(Get(post, "likes"), Arr([]));
      if !likes.Arr? {
        var what :=
          if !likes.Str? then "likes.indexOf is not a function"
          else if Includes(likes.s, PropertyKey(Get(user.value, "uid"))) then "likes.splice is not a function"
          else "likes.push is not a function";
        SetError(Str(what));
        return Throws(TypeError(what));
      }
      var toggled := ToggleLikes(likes.items, Get(user.value, "uid"));
      var updated := post["likes" := Arr(toggled)];
      UpdatePost(updated);
      res := Ok(updated);
    }

    /** `fetchPostsByCategory`: `listed` is the category's post list
        (`None` when it does not exist) and `remote` the existing posts. The
        ids are returned newest first, and the fetched posts are merged into
        the store. */
    method FetchPostsByCategory(listed: Option<map<string, Value>>, remote: map<string, Value>)
      returns (sorted: seq<string>, fetched: map<string, Record>)
      requires HasTimestamps(remote)
      modifies this`posts, this`loading
      ensures !loading
      ensures listed.None? ==> sorted == [] && fetched == map[] && posts == old(posts)
      ensures listed.Some? ==> forall id :: id in fetched <==> id in listed.value && id in remote
      ensures forall id :: id in fetched ==> id in remote && fetched[id] == Keyed(id, remote[id])
      ensures forall id :: id in sorted <==> id in fetched
      ensures |sorted| == |fetched.Keys|
      ensures forall i, j :: 0 <= i < j < |sorted| ==>
        sorted[i] in fetched && sorted[j] in fetched && CreatedAt(fetched[sorted[i]]) >= CreatedAt(fetched[sorted[j]])
      ensures posts == old(posts) + fetched
    {
      SetLoading(true);
      if listed.None? {
        SetPosts(map[]);
        assert posts == old(posts) + map[];
        SetLoading(false);
        return [], map[];
      }
      var ids := SetToSeq(listed.value.Keys);
      fetched := CollectPosts(ids, remote);
      sorted := SortKeysNewestFirst(fetched);
      SetPosts(fetched);
      SetLoading(false);
    }

    /** `fetchComments`: the comments snapshot flattened into `{ id, ...data }`
        records, or `[]` when it does not exist. */
    method FetchComments(postId: string, snapshot: Option<seq<(string, Value)>>)
      modifies this`comments, this`loading
      ensures !loading
      ensures postId in comments && comments.Keys == old(comments).Keys + {postId}
      ensures forall p :: p in old(comments) && p != postId ==> comments[p] == old(comments)[p]
      ensures snapshot.None? ==> comments[postId] == []
      ensures snapshot.Some? ==> |comments[postId]| == |snapshot.value|
      ensures snapshot.Some? ==> forall i :: 0 <= i < |snapshot.value| ==>
        comments[postId][i] == Comments.ChildRecord(snapshot.value[i].0, snapshot.value[i].1)
    {
      SetLoading(true);
      var list := Comments.Flatten(snapshot);
      SetComments(postId, list);
      SetLoading(false);
    }

    /** `toggleCommentLike`: `wasLiked` says whether the user's like entry
        existed, `storedCount` is the likes count as read. The count written
        is returned. */
    method ToggleCommentLike(user: Option<Record>, postId: string, commentId: string, wasLiked: bool, storedCount: Value)
      returns (res: Result<int>)
      requires IsCount(storedCount)
      modifies this`comments, this`error
      ensures user.None? ==> res == Throws(Error("Необходима авторизация")) && error == Str("Необходима авторизация")
      ensures user.None? ==> comments == old(comments)
      ensures user.Some? ==> res == Ok(LikesCountAfterToggle(wasLiked, storedCount)) && error == old(error)
      ensures user.Some? ==>
        comments == old(comments)[postId := MergeById(CommentsOf(old(comments), postId), commentId, CommentLikeUpdates(wasLiked, storedCount))]
    {
      if user.None? {
        SetError(Str("Необходима авторизация"));
        return Throws(Error("Необходима авторизация"));
      }
      UpdateComment(postId, commentId, CommentLikeUpdates(wasLiked, storedCount));
      res := Ok(LikesCountAfterToggle(wasLiked, storedCount));
    }

    /** `deleteComment`: `stored` is the comment as read and `post` the post
        as read (`None` when they do not exist). The `commentsCount` written
        is returned when the post exists. */
    method DeleteCommentAction(user: Option<Record>, postId: string, commentId: string,
                               stored: Option<Value>, post: Option<Value>)
      returns (res: Result<Option<int>>)
      requires post.Some? ==> IsCount(Member(post.value, "commentsCount"))
      modifies this`comments, this`error
      ensures user.None? ==> res == Throws(Error("Необходима авторизация"))
      ensures user.Some? && stored.None? ==> res == Throws(Error("Комментарий не найден"))
      ensures user.Some? && stored.Some? && !MayDeleteComment(stored.value, user.value) ==>
        res == Throws(Error("Нет прав на удаление комментария"))
      ensures res.Throws? ==> comments == old(comments) && error == Str(MessageOf(res.err))
      ensures res.Ok? <==> user.Some? && stored.Some? && MayDeleteComment(stored.value, user.value)
      ensures res.Ok? ==> error == old(error)
      ensures res.Ok? ==>
        comments == old(comments)[postId := WithoutId(CommentsOf(old(comments), postId), commentId)]
      ensures res.Ok? && post.None? ==> res.value.None?
      ensures res.Ok? && post.Some? ==> res.value == Some(CommentsCountAfterDelete(post.value))
    {
      var message: string;
      if user.None? {
        message := "Необходима авторизация";
      } else if stored.None? {
        message := "Комментарий не найден";
      } else if !MayDeleteComment(stored.value, user.value) {
        message := "Нет прав на удаление комментария";
      } else {
        DeleteComment(postId, commentId);
        if post.Some? {
          return Ok(Some(CommentsCountAfterDelete(post.value)));
        }
        return Ok(None);
      }
      SetError(Str(message));
      res := Throws(Error(message));
    }

    /** `createReply`: `key` is the generated reply key and `now` the
        client clock. The reply record written remotely is returned in
        `written`; the local append can still throw afterwards. */
    method CreateReply(user: Option<Record>, postId: string, commentId: string, text: Value, key: string, now: int)
      returns (res: Result<Record>, written: Option<Record>)
      modifies this`comments, this`error
      ensures user.None? ==> res == Throws(Error("Необходима авторизация")) && written.None?
      ensures user.Some? ==> written == Some(NewReply(user.value, text, now))
      ensures user.Some? ==> var list := AppendReply(CommentsOf(old(comments), postId), commentId,
                                                     Obj(Keyed(key, Obj(NewReply(user.value, text, now)))));
        (list.Ok? ==> res == Ok(NewReply(user.value, text, now)) && comments == old(comments)[postId := list.value] && error == old(error)) &&
        (list.Throws? ==> res == Throws(list.err))
      ensures res.Throws? ==> comments == old(comments) && error == Str(MessageOf(res.err))
    {
      if user.None? {
        SetError(Str("Необходима авторизация"));
        return Throws(Error("Необходима авторизация")), None;
      }
      var reply := NewReply(user.value, text, now);
      written := Some(reply);
      var outcome := AddReply(postId, commentId, Obj(Keyed(key, Obj(reply))));
      if outcome.Fails? {
        SetError(Str(MessageOf(outcome.err)));
        return Throws(outcome.err), written;
      }
      res := Ok(reply);
    }

    /** `createComment` as it stands after the shadowing, and `likeComment`
        and `replyToComment`: all three read `rootState.auth.currentUser`,
        which the session store does not have, so reading its `uid` throws
        before anything is written or committed. */
    method CreateComment(postId: Value, content: Value) returns (res: Outcome)
      ensures res == Fails(TypeError("Cannot read properties of undefined (reading 'uid')"))
    {
      res := Fails(TypeError("Cannot read properties of undefined (reading 'uid')"));
    }

    /** `likeComment` evaluates the callee `firebase.database` before the
        path that reads `uid`, and no `firebase` is declared. */
    method LikeComment(postId: Value, commentId: Value) returns (res: Outcome)
      ensures res == Fails(ReferenceError("firebase"))
    {
      res := Fails(ReferenceError("firebase"));
    }

    method ReplyToComment(postId: Value, commentId: Value, content: Value) returns (res: Outcome)
      ensures res == Fails(TypeError("Cannot read properties of undefined (reading 'uid')"))
    {
      res := Fails(TypeError("Cannot read properties of undefined (reading 'uid')"));
    }

    /* ----- getters ----- */

    function GetPostById(id: string): (r: Option<Record>)
      reads this
      ensures r.Some? <==> id in posts
      ensures r.Some? ==> r.value == posts[id]
    {
      if id in posts then Some(posts[id]) else None
    }

    /** `getCommentsByPostId`: the stored list is sorted in place, newest
        first, and returned; a post without a list gets a fresh `[]`. */
    method GetCommentsByPostId(postId: string) returns (r: seq<Record>)
      requires forall c :: c in CommentsOf(comments, postId) ==> Get(c, "createdAt").Num?
      modifies this`comments
      ensures multiset(r) == multiset(CommentsOf(old(comments), postId))
      ensures NewestFirst(r, CreatedAt)
      ensures postId !in old(comments) ==> r == [] && comments == old(comments)
      ensures postId in old(comments) ==> comments == old(comments)[postId := r]
    {
      var list := CommentsOf(comments, postId);
      r := SortNewestFirst(list, CreatedAt);
      if postId in comments {
        comments := comments[postId := r];
      } else {
        assert multiset(r) == multiset{};
      }
    }
  }

  /** The reply `createReply` writes. */
  function NewReply(user: Record, text: Value, now: int): (r: Record)
    ensures r.Keys == {"userId", "text", "createdAt", "user"}
    ensures r["userId"] == Get(user, "uid") && r["text"] == text && r["createdAt"] == Num(now)
    ensures r["user"] == Obj(map["uid" := Get(user, "uid"), "username" := Get(user, "displayName"),
                                 "avatar" := Get(user, "photoURL")])
  {
    map["userId" := Get(user, "uid"), "text" := text, "createdAt" := Num(now),
        "user" := Obj(map["uid" := Get(user, "uid"), "username" := Get(user, "displayName"),
                          "avatar" := Get(user, "photoURL")])]
  }

  /** The elements of a finite set, in some order, each once. */
  method SetToSeq(s: set<string>) returns (r: seq<string>)
    ensures NoDups(r)
    ensures forall x :: x in r <==> x in s
    ensures |r| == |s|
  {
    r := [];
    var todo := s;
    while todo != {}
      invariant todo <= s
      invariant NoDups(r)
      invariant forall x :: x in r <==> x in s - todo
      invariant |r| == |s - todo|
      decreases todo
    {
      var x :| x in todo;
      r := r + [x];
      todo := todo - {x};
      assert s - todo == (s - (todo + {x})) + {x};
    }
  }
}

=== FILE: reply.dfy ===
/**
 * The topic-reply store: one flat list of replies, a loading flag and the
 * last error. The HTTP calls of its actions are inputs: the posted reply as
 * the server echoes it, the fetched reply list, and the profile responses per
 * user id.
 */
module Reply {
  import opened Js

  /** The reply enriched with its author's profile: `{ ...reply, username,
      userAvatar }`. `profile` is `profileResponse.data`, or `None` when the
      profile request failed. */
  function Enrich(reply: Value, profile: Option<Value>): (r: Value)
    ensures r.Obj? && r.fields.Keys == SpreadValue(reply).Keys + {"username", "userAvatar"}
    ensures Truthy(Get(r.fields, "username")) && Truthy(Get(r.fields, "userAvatar"))
    ensures profile.None? ==>
      Get(r.fields, "username") == Str("Гость") && Get(r.fields, "userAvatar") == Str("/image/empty_avatar.png")
    ensures profile.Some? && Truthy(Member(profile.value, "username")) ==>
      Get(r.fields, "username") == Member(profile.value, "username")
    ensures profile.Some? && Truthy(Member(profile.value, "avatarUrl")) ==>
      Get(r.fields, "userAvatar") == Member(profile.value, "avatarUrl")
    ensures profile.Some? && !Truthy(Member(profile.value, "username")) ==> Get(r.fields, "username") == Str("Гость")
    ensures profile.Some? && !Truthy(Member(profile.value, "avatarUrl")) ==>
      Get(r.fields, "userAvatar") == Str("/image/empty_avatar.png")
    ensures forall f :: f in SpreadValue(reply) && f != "username" && f != "userAvatar" ==>
      f in r.fields && r.fields[f] == SpreadValue(reply)[f]
  {
    var data := if profile.Some? then profile.value else Undefined;
    var own := map[
      "username" := Or(Member(data, "username"), Str("Гость")),
      "userAvatar" := Or(Member(data, "avatarUrl"), Str("/image/empty_avatar.png"))
    ];
    assert own.Keys == {"username", "userAvatar"};
    Obj(Spread(SpreadValue(reply), own))
  }

  /** The profile response for one reply's author, looked up by the author id
      as the request path spells it; a missing entry is a failed request.
      Reading `reply.userId` on a null or undefined reply throws inside the
      same `try`, so such a reply gets the defaults as well. */
  function ProfileFor(reply: Value, profiles: map<string, Value>): (r: Option<Value>)
    ensures reply.Null? || reply.Undefined? ==> r.None?
    ensures !(reply.Null? || reply.Undefined?) ==>
      (r.Some? <==> PropertyKey(Member(reply, "userId")) in profiles)
    ensures r.Some? ==> r.value == profiles[PropertyKey(Member(reply, "userId"))]
  {
    if reply.Null? || reply.Undefined? then None
    else
      var key := PropertyKey(Member(reply, "userId"));
      if key in profiles then Some(profiles[key]) else None
  }

  /** The list `fetchRepliesByTopicId` stores: every reply enriched, in the
      fetched order (`Promise.all` keeps the order of the mapped array). */
  function EnrichAll(fetched: seq<Value>, profiles: map<string, Value>): (r: seq<Value>)
    ensures |r| == |fetched|
    ensures forall i :: 0 <= i < |r| ==> r[i] == Enrich(fetched[i], ProfileFor(fetched[i], profiles))
  {
    MapSeq(fetched, (reply: Value) => Enrich(reply, ProfileFor(reply, profiles)))
  }

  /** Enrichment of a concatenation is the concatenation of the enrichments. */
  lemma EnrichAllAppend(a: seq<Value>, b: seq<Value>, profiles: map<string, Value>)
    ensures EnrichAll(a + b, profiles) == EnrichAll(a, profiles) + EnrichAll(b, profiles)
  {
  }

  class ReplyStore {
    var replies: seq<Value>
    var loading: bool
    var error: Value

    constructor ()
      ensures replies == [] && !loading && error == Null
    {
      replies := [];
      loading := false;
      error := Null;
    }

    method SetReplies(list: seq<Value>)
      modifies this
      ensures replies == list && loading == old(loading) && error == old(error)
    {
      replies := list;
    }

    method AddReply(reply: Value)
      modifies this
      ensures |replies| == |old(replies)| + 1
      ensures replies[..|old(replies)|] == old(replies) && replies[|old(replies)|] == reply
      ensures loading == old(loading) && error == old(error)
    {
      replies := replies + [reply];
    }

    method SetLoading(status: bool)
      modifies this
      ensures loading == status && replies == old(replies) && error == old(error)
    {
      loading := status;
    }

    method SetError(e: Value)
      modifies this
      ensures error == e && replies == old(replies) && loading == old(loading)
    {
      error := e;
    }

    /** `addReply`: `posted` is the server's answer to the POST (its data), or
        the message of the failed request. */
    method AddReplyAction(posted: Result<Value>) returns (res: Result<Value>)
      modifies this
      ensures !loading
      ensures posted.Ok? ==> res == posted && replies == old(replies) + [posted.value] && error == old(error)
      ensures posted.Throws? ==> res == posted && replies == old(replies)
      ensures posted.Throws? ==> error == Str(MessageOf(posted.err))
    {
      SetLoading(true);
      if posted.Throws? {
        SetError(Str(MessageOf(posted.err)));
        SetLoading(false);
        return posted;
      }
      AddReply(posted.value);
      SetLoading(false);
      res := posted;
    }

    /** `fetchRepliesByTopicId`: `fetched` is `response.data` of the list
        request (which must be an array for `.map`), `profiles` the profile
        responses by author id. The action itself resolves to nothing; `res`
        reports the committed list or the error it rethrows. */
    method FetchRepliesByTopicId(fetched: Result<Value>, profiles: map<string, Value>) returns (res: Result<seq<Value>>)
      modifies this
      ensures !loading
      ensures fetched.Ok? && fetched.value.Arr? ==>
        res.Ok? && replies == EnrichAll(fetched.value.items, profiles) && res.value == replies
        && error == old(error)
      ensures !(fetched.Ok? && fetched.value.Arr?) ==> res.Throws? && replies == old(replies)
      ensures fetched.Throws? ==> res == Throws(fetched.err) && error == Str(MessageOf(fetched.err))
      ensures fetched.Ok? && !fetched.value.Arr? ==> res.err.TypeError? && error == Str(MessageOf(res.err))
    {
      SetLoading(true);
      if fetched.Throws? {
        var e := fetched.err;
        SetError(Str(MessageOf(e)));
        SetLoading(false);
        return Throws(e);
      }
      if !fetched.value.Arr? {
        var what := "response.data.map is not a function";
        SetError(Str(what));
        SetLoading(false);
        return Throws(TypeError(what));
      }
      var list := EnrichAll(fetched.value.items, profiles);
      SetReplies(list);
      SetLoading(false);
      res := Ok(list);
    }
  }
}
